=== FILE: README.md ===
# tiny-planets: live module reload and icosphere meshes, in Dafny

tiny-planets renders a planet with OpenGL and keeps its drawing code in a
separately built native library. That library is hot-reloaded while the
window stays open. This project models the parts of it that decide what
happens, and proves properties of them:

- **The host's `Handle`** (`src/handle.rs`), as the module `Host`. It holds
  at most one loaded library and the name of the staged copy it came from.
  - `reload` deinitialises the held library. It then removes the previous
    staged copy and copies the build artifact to `"{target}.{secs}"`. It
    rewrites the copy's install name with `install_name_tool` and loads it.
    Only then is the old library released. Finally it initialises whatever
    was loaded.
  - `draw` dispatches the frame counter to the module's `draw` and then
    finishes the frame.
  - `Drop` removes the staged copy.

  Every external effect is an `Event` in a trace. The world's answers are
  inputs (`Env`): the clock, whether the copy and the `install_name_tool`
  run succeed, what the loader resolves, and whether the frame finishes. A
  panic (`unwrap`/`expect`) ends the run with the effects made so far. While
  the panic unwinds, the handle's owner drops it in the state the panic left
  it. For a panicking `reload`, `Host.Unwind` adds the effects of that drop.
  A panicking `draw` leaves the handle unchanged, so its unwinding drop is
  `Drop(h)`, whose effect on disk `Cleanup.DropRemovesCopy` states.
- **The staged copies on disk**, as the module `Cleanup`. It replays copies
  and removals over a set of file names:
  - A session that returns, followed by dropping its handle, leaves no
    staged copy behind, provided every removal succeeds (the source ignores
    a failed removal's error, and that copy then stays on disk).
  - When `install_name_tool` cannot be run, the unwinding drop removes the
    old name, which is already gone, so the new copy stays on disk.
  - A panic in the final `init` leaves nothing behind.
- **The module's `STATE` static** (`src/live.rs`), as the module `Live`.
  Each loaded copy of the library has its own slot. `init` fills it, `draw`
  reads it and panics when it is empty, and `deinit` empties it.
- **The protocol across both**, as the module `Session`. A handle made by
  `Handle::new` and driven by any sequence of `reload` and `draw` calls
  never reaches the module's `draw` with an empty `STATE`. This is proved
  twice:
  - as an invariant on the handle;
  - by replaying the host's trace through the module-side state machine,
    one slot per file the host has tried to load (a `Load` effect opens a
    slot whether or not the loader accepts the file; the handle then holds
    no library for it, so nothing calls into it).
- **Icosphere subdivision** (`src/draw/icosphere.rs`), as the module
  `Icosphere`, taken combinatorially.
  - A vertex is one of the twelve base corners, or the centre of two
    earlier vertices.
  - The `edge` closure memoises the index of each edge's midpoint under
    the key `(min, max)`.
  - Each level splits every triangle into four, with the nine `edge` calls
    in source order.
  - Normalisation projects every vertex onto the sphere, and the indices
    are converted to `u32`.
- **The older drawing module** (`src/draw.rs`), as the module `LegacyDraw`.
  It has its own icosphere, which normalises to radius one half. It turns
  meshes into vertex and index buffers, and `State::new` uploads a level-2
  icosphere as a triangle list.
- **`Interpolator::at`** (`src/draw/util.rs`), as the module `Util`, over
  the reals.

The module `Decimal` models Rust's `{}` rendering of the `u64` seconds in
the staged name. `Wrappers` holds `Option`.

Some behaviour is modelled as the code has it:
- An `install_name_tool` run that exits with a failure status is not
  checked; only a failure to spawn or wait for it panics.
- A clock before the Unix epoch panics on `duration_since(..).unwrap()`.
- The right-hand side of `self.lib = Library::new(..).ok()` is evaluated
  before the old library is dropped, so the new copy is loaded before the
  old one is released.
- Two reloads within the same second stage to the same file name
  (`Host.StagedPathInjective`). The loader may then hand back the image
  that is still mapped.

Three behaviours of the code matter here, and the model follows them:
- A missing entry point, a failed copy (including an absent artifact) and
  a failed `install_name_tool` spawn all panic. Only a library the loader
  rejects leaves the handle empty, and the render loop then draws nothing.
- On drop, the handle removes the staged copy and releases the library
  without calling the module's `deinit`.
- Entry points are resolved when called, not validated at load time. A
  library without `init` therefore loads and then panics in `Handle::init`.

## Model

| member | source | states |
|---|---|---|
| Live.Init | src/live.rs:12-17 | `init` leaves `STATE` holding a scene built for the given display, whatever it held before |
| Live.Draw | src/live.rs:19-24 | `draw` renders exactly when `STATE` is set, passes the counter through, never changes the slot, and panics on an empty slot |
| Live.Deinit | src/live.rs:26-31 | `deinit` empties `STATE`, and on an empty slot changes nothing |
| Live.DeinitIdempotent | src/live.rs:19-31 | a second `deinit` changes nothing, and `draw` after `deinit` panics |
| Live.DrawAfterInit | src/live.rs:12-24 | after `init`, `draw` renders the scene built for that display and leaves the slot as `init` left it |
| Decimal.Show | src/handle.rs:51-53 | the seconds are rendered as at least one decimal digit, with no leading zero, and zero as the single digit `0` |
| Decimal.ParseShow | src/handle.rs:51-53 | the rendered numeral reads back as the number it came from |
| Decimal.ShowInjective | src/handle.rs:51-53 | two numbers get the same numeral exactly when they are equal |
| Host.StagedPath | src/handle.rs:51-53 | the staged name is the target, a dot, and at least one more character |
| Host.StagedPathInjective | src/handle.rs:51-53 | two reloads stage to the same name exactly when they read the same second, and the staged name is never the artifact itself |
| Host.Deinit | src/handle.rs:22-28 | with no library nothing happens; otherwise the module's `deinit` is the single effect, or the run panics with no effect when `deinit` cannot be resolved; the library stays held with its `STATE` emptied |
| Host.Init | src/handle.rs:30-36 | with no library nothing happens; otherwise one `init` call with the display, or a panic with no effect when `init` cannot be resolved; afterwards the held library's `STATE` is set |
| Host.Draw | src/handle.rs:38-45 | the module's `draw` gets the counter unchanged exactly when a library is held, and is called at most once and first; a draw that returns finishes the frame last; the run panics exactly when finishing fails, `draw` is missing, or `STATE` is empty, and an empty `STATE` implies the handle broke its invariant; a missing `draw` panics with no effect and an empty `STATE` panics right after the dispatch; the trace holds at most the dispatch and the frame finish, nothing else; drawing changes nothing in the handle |
| Host.Reload | src/handle.rs:47-67 | `reload` panics exactly when `deinit` is missing, the clock is before the epoch, the copy fails, `install_name_tool` cannot run, or the loaded library lacks `init`; never on an empty `STATE`; on return the path is the new staged name, a library is held exactly when the loader accepted the copy, and that library is the staged copy with `STATE` initialised for the display |
| Host.New | src/handle.rs:16-20 | a new handle panics only on the clock, the copy, `install_name_tool` or a missing `init`; its first effect is the copy; it never deinitialises, removes or unloads anything |
| Host.Drop | src/handle.rs:70-74 | dropping removes the staged copy first and releases the held library last; it has no other effect (at most these two) and never calls into the module |
| Host.PanicHandle | src/handle.rs:47-67 | the handle a panicking `reload` leaves behind keeps its target; it names the previous staged copy unless the panic is the missing `init` of a loaded library, and then it names, and holds, the new staged copy: once deinit, clock, copy and rename have all succeeded, the path is the new staged name and the held library is that file |
| Host.Unwind | src/handle.rs:47-74 | the effects of a panicking `reload` under unwinding are its crash trace followed only by removals and library releases |
| Host.ReloadTrace | src/handle.rs:47-67 | a `reload` that returns produces exactly the effect sequence: deinit, remove old copy, copy, install name, load, release old library, init |
| Host.EffectsTearDownFirst | src/handle.rs:47-49 | in that sequence the `deinit` of the held library is first and the only one, and only the previous staged copy is removed, before the copy |
| Host.ReloadTearsDownFirst | src/handle.rs:47-55 | in a `reload` that returns, the old library's `deinit` comes first and is the only one; the previous staged copy, and only it, is removed before the new copy is made |
| Host.EffectsBringUpOrder | src/handle.rs:55-66 | in that sequence copy, install-name rewrite and load come in that order, and the old library's release and the new library's `init` come after the load |
| Host.EffectsInitLast | src/handle.rs:64-66 | in that sequence `init` is called at most once, last, on the new staged copy, and nothing is drawn |
| Host.ReloadBringsUpLast | src/handle.rs:55-66 | in a `reload` that returns, copy, rename and load come in order; the old library is released only after the new load; `init` is called at most once, last, and only on the new copy; nothing is drawn |
| Session.PlayKeepsCoherent | src/handle.rs:38-67 | from a handle whose held library has `STATE` set, any sequence of `reload` and `draw` keeps that invariant and never panics on an empty `STATE` |
| Session.SessionNeverDrawsUnset | src/live.rs:19-24 | `Handle::new` followed by any commands, whatever the world answers, never panics in the module's `draw` |
| Session.ReplayTeardown | src/handle.rs:47-49 | replaying the `deinit` and the file operations that follow it clears the held library's slot and nothing else |
| Session.ReloadEarlyCrashTrace | src/handle.rs:51-62 | a `reload` that panics on the clock, the copy or `install_name_tool` has made only the teardown and some passive file effects |
| Session.ClockCrashTrace | src/handle.rs:51-53 | a clock before the epoch panics after the teardown, with no file created |
| Session.CopyCrashTrace | src/handle.rs:55-56 | a failed copy panics after the teardown and the attempted copy |
| Session.InstallNameCrashTrace | src/handle.rs:57-62 | a failed `install_name_tool` run panics after the copy and the attempted rename |
| Session.ReloadLateTrace | src/handle.rs:64-66 | a `reload` that gets past the rename loads, releases the old library, and calls `init` exactly when the load succeeded with `init` present |
| Session.ReplayLoaded | src/handle.rs:47-64 | replaying up to the release of the old library leaves the old slot empty and the new copy's slot fresh |
| Session.ReloadLateReplays | src/handle.rs:64-67 | a `reload` that loads replays on the module side and leaves the handle agreeing with the module's view |
| Session.ReloadReplays | src/handle.rs:47-67 | every `reload` replays without calling into a file the host never tried to load, and one that returns leaves the handle agreeing with the module's view |
| Session.DrawReplays | src/handle.rs:38-45 | on a handle that agrees with the module's view and keeps its invariant, `draw` replays without touching any slot |
| Session.PlayReplays | src/handle.rs:38-67 | any command sequence replays on the module side, never dispatching `draw` to an empty slot or calling into a file the host never tried to load |
| Session.SessionReplays | src/handle.rs:16-20 | a whole session from `Handle::new` replays on the module side from an empty process |
| Icosphere.BaseMesh | src/draw/icosphere.rs:15-48 | the base mesh has twelve vertices and twenty triangles, every index below twelve |
| Icosphere.Edge | src/draw/icosphere.rs:52-60 | `edge` returns the midpoint index stored under the key `(min, max)`; on a miss it appends the centre of the two vertices at the end and records its index; on a hit it changes nothing; the memo stays valid and only grows |
| Icosphere.EdgeSymmetric | src/draw/icosphere.rs:52-60 | `edge(a, b)` and `edge(b, a)` return the same index and leave the same edge map |
| Icosphere.EdgeRepeat | src/draw/icosphere.rs:52-60 | once an edge has been seen, calling `edge` on it again in either order returns the same index and grows nothing |
| Icosphere.EdgeHit | src/draw/icosphere.rs:54-59 | on an edge already in the map, `edge` returns the recorded midpoint and changes nothing |
| Icosphere.OpenEdges | src/draw/icosphere.rs:65-66 | the first three `edge` calls of a triangle record all three of its edges and add at most three vertices |
| Icosphere.Revisit | src/draw/icosphere.rs:66-68 | `edge` calls on edges already recorded return the stored midpoints and change nothing |
| Icosphere.SplitTriangle | src/draw/icosphere.rs:64-69 | a triangle becomes three corner triangles, each holding its corner and the midpoints of that corner's two edges, plus the triangle of the three midpoints, all four recorded in the edge map; at most three vertices are added; every child indexes an existing vertex |
| Icosphere.RefineAt | src/draw/icosphere.rs:63-70 | in the reference refinement of a level, the children of triangle `k` are at `4k` to `4k+3` |
| Icosphere.RefineStable | src/draw/icosphere.rs:52-60 | recording further edges does not change the refinement of triangles whose edges were already recorded |
| Icosphere.SplitAll | src/draw/icosphere.rs:63-70 | one level is exactly the reference refinement through the final edge map: the children of triangle `k` are at `4k` to `4k+3`, as `SplitTriangle` builds them, with every midpoint recorded; at most three vertices are added per triangle; all indices stay in bounds and the memo only grows |
| Icosphere.Subdivide | src/draw/icosphere.rs:62-71 | `level` rounds sharing one edge map are exactly `level` reference refinements through the final edge map, every midpoint of every round recorded; the triangle count is multiplied by `4^level`, at most `|ts| * (4^level - 1)` vertices are added, every index stays in bounds, and the memo only grows |
| Icosphere.Normalize | src/draw/icosphere.rs:74-77 | normalisation maps each vertex, one for one and in order, onto the sphere of the given radius |
| Icosphere.AsU32 | src/draw/icosphere.rs:79-81 | `as u32` keeps the low 32 bits: the result is below `2^32` and differs from the input by a multiple of `2^32`, so nothing below `2^32` changes |
| Icosphere.ToU32 | src/draw/icosphere.rs:79-81 | the conversion keeps the triangle count and order, yields indices below `2^32`, and leaves a triangle whose indices fit unchanged |
| Icosphere.ToU32Preserves | src/draw/icosphere.rs:79-81 | when every index is below a vertex count that fits in `u32`, the conversion changes nothing |
| Icosphere.Sphere | src/draw/icosphere.rs:13-84 | the indices are `level` refinements of the base triangles, as `u32`, through an edge map whose every midpoint is the centre of its edge's endpoints among the vertices; there are `20 * 4^level` triangles and between 12 and `20 * 4^level - 8` vertices, the first twelve being the projected base corners, all on the sphere of the given radius; every index is below `2^32`; up to level 13 every index names an existing vertex |
| Icosphere.Build | src/draw/icosphere.rs:13-84 | `icosphere(level)` gives `level` refinements of the base triangles, as `u32`, through an edge map whose every midpoint is the centre of its edge's endpoints; `20 * 4^level` triangles and between 12 and `20 * 4^level - 8` unit-sphere vertices, with the base corners first; every index is below `2^32`; up to level 13 every index names an existing vertex |
| LegacyDraw.Vertices | src/draw.rs:33-34 | one vertex per position, in order, with that position |
| LegacyDraw.VerticesRoundTrip | src/draw.rs:33-34 | building vertices from positions and reading the positions back are inverse in both directions |
| LegacyDraw.Vbo | src/draw.rs:29-40 | `vbo` uploads every position as a vertex, in order, and draws them unindexed with the given primitive type |
| LegacyDraw.FlattenIndex | src/draw.rs:61-62 | the flat index list holds triangle `k`'s `x`, `y`, `z` at `3k`, `3k+1`, `3k+2` |
| LegacyDraw.UnflattenFlatten | src/draw.rs:61-62 | reading the flat index list three at a time recovers the triangles |
| LegacyDraw.FlattenUnflatten | src/draw.rs:61-62 | every flat list of whole triangles is the flattening of the triangles it reads as |
| LegacyDraw.FlattenInBounds | src/draw.rs:61-62 | triangles that index only existing vertices flatten to indices that do |
| LegacyDraw.Buffers | src/draw.rs:52-65 | `buffers` uploads every position as a vertex and an index buffer of the given primitive type with three indices per triangle, reading back as the triangles, and in bounds whenever the triangles were |
| LegacyDraw.OldIcosphere | src/draw.rs:70-138 | the older `icosphere` gives `level` refinements of the base triangles through an edge map of genuine midpoints; `20 * 4^level` triangles and between 12 and `20 * 4^level - 8` vertices, all on the sphere of radius one half, with the base corners first |
| LegacyDraw.Uploaded | src/draw.rs:151-152 | uploading a subdivided mesh of radius-one-half vertices as a triangle list keeps it: the vertex positions and the triangles read back from the buffers are the mesh's, so they are the same subdivision, and every index names an uploaded vertex |
| LegacyDraw.NewState | src/draw.rs:150-173 | `State::new` uploads a triangle list of 960 indices (320 triangles), reading back as two refinements of the base triangles through an edge map of genuine midpoints, each index naming one of between 12 and 312 uploaded vertices on the sphere of radius one half |
| Util.Scan | src/draw/util.rs:7-15 | the scan from segment `i` returns 0 when no later segment holds the input, and otherwise interpolates on the first one that does |
| Util.Interpolate | src/draw/util.rs:6-16 | `at` panics exactly on an empty point list; otherwise it interpolates on the first segment holding the input, and returns 0 when none does |
| Util.Lerp | src/draw/util.rs:9-12 | interpolation on a segment gives NaN exactly when the segment has zero width |
| Util.At | src/draw/util.rs:6-16 | the loop as written returns what the first-segment definition prescribes, and panics exactly on an empty point list |
| Util.AtKnot | src/draw/util.rs:6-16 | on strictly increasing x-values, the interpolation passes through every control point |
| Util.Between | src/draw/util.rs:6-16 | on strictly increasing x-values, an input inside a segment gives a value between that segment's two y-values |
| Util.HitIffInRange | src/draw/util.rs:6-16 | on strictly increasing x-values, some segment holds the input exactly when it lies between the first and last x-values; outside, the result is 0 |
| Util.SinglePoint | src/draw/util.rs:7-15 | a single control point defines no segment, so the result is 0 everywhere |
| Cleanup.After | src/handle.rs:49-56 | a copy puts its destination on disk, a removal takes its file off (an absent file is no error), neither touches any other file, and every other effect leaves the disk alone |
| Cleanup.DropRemovesCopy | src/handle.rs:70-74 | dropping a handle deletes exactly its recorded staged copy and nothing else, taking the removal as successful |
| Cleanup.ReloadEffectsOnDisk | src/handle.rs:47-67 | the effects of a returning `reload` replace the previous staged copy by the new one |
| Cleanup.ReloadOnDisk | src/handle.rs:47-67 | a `reload` that returns leaves the new staged copy, which its handle records, in place of the previous one |
| Cleanup.DrawOnDisk | src/handle.rs:38-45 | drawing touches no file |
| Cleanup.PlayOnDisk | src/handle.rs:38-67 | after any commands that return, the staged copies on disk are exactly the one the handle records, every removal taken as successful |
| Cleanup.SessionLeavesNoCopy | src/handle.rs:16-20 | `Handle::new`, any commands that return, and the drop of the handle together leave no staged copy on disk, every removal taken as successful |
| Cleanup.InstallNameCrashLeaks | src/handle.rs:57-62 | when `install_name_tool` cannot run, after unwinding the new staged copy is the only one left on disk, because the dropped handle still names the previous, already removed, copy |
| Cleanup.MissingInitCrashCleans | src/handle.rs:64-66 | when the loaded library lacks `init`, the unwinding drop removes the new staged copy, so no copy is left |

## Left out

- File system, clock, dynamic loader and `install_name_tool`: their answers to the copy, the clock reading, the `install_name_tool` run and the load are the inputs in `Host.Env`, and their effects are trace events. Removals have no such input; every removal is taken as successful (see `Cleanup.After`). The files' contents and the loader's reference counting are not modelled.
- `src/main.rs`: the window, the event loop, the rebuild process, change detection and the frame counter are not part of this model.
- The scene that `init` builds (`draw::draw::State`, from `src/draw/draw.rs`) is reduced to the display it was built for. Its rendering is not modelled.
- Floating-point geometry: the golden-ratio corner coordinates, `center`, and the normalising division by the vector's length are symbolic. A vertex is a base corner or the centre of two earlier vertices. `Normalize` records the target radius instead of computing coordinates.
- GPU work: buffer creation and its `unwrap`, shader compilation, `State::draw` in `src/draw.rs` and frame drawing are not modelled. Buffers are modelled as the data handed over.
- Icosphere.Sphere: bounds the vertex count by `20 * 4^level - 8` instead of stating the exact `10 * 4^level + 2`, because counting distinct edges is not modelled. Hence index lossless-ness under `as u32` is proved up to level 13, while the true limit is level 14.
- Icosphere.Build: the same vertex-count bound and level-13 limit as `Icosphere.Sphere`.
- LegacyDraw.OldIcosphere: the same vertex-count bound as `Icosphere.Sphere`. The level-2 mesh of `State::new` is stated to have between 12 and 312 vertices, not exactly 162.
- Session.Apply: an `Unload` event does not discard the file's slot. A reload within the same second stages to the same name, and the loader keeps an image mapped while any handle refers to it, so the model does not assume the slot disappears.
- Cleanup.After: takes every `RemoveFile` as successful. The source discards the `Result` of `fs::remove_file` in `reload` and in `Drop` (src/handle.rs:49, 72), so a removal that fails for a reason other than a missing file (permissions, a busy or read-only file system) leaves that staged copy on disk while the handle moves on. `Cleanup.DropRemovesCopy`, `Cleanup.PlayOnDisk` and `Cleanup.SessionLeavesNoCopy` hold only under this assumption.
- Cleanup.OnDisk: takes every `CopyFile` as successful. A failed copy is the last effect of its crash trace, and what it leaves on disk is not modelled, so the disk lemmas cover only returning runs and the panics after a successful copy.
- Host.Reload: the `u64` range of the seconds and the platform's file-name limits are not modelled.
- Host.Draw: `frame.finish()` is an input that either succeeds or fails; what the frame contains is not modelled.
- Util.Interpolate: works over the reals. `f32` rounding, infinities and NaN inputs are not modelled. In a release build the `len() - 1` underflow wraps, and the first index then panics, so both builds panic on an empty list.

=== FILE: cleanup.dfy ===
/**
 * The staged copies a handle leaves on disk (src/handle.rs).
 *
 * Every `reload` copies the build artifact to a new staged name and removes
 * the previous one, and `Drop` removes the last. The set of staged copies on
 * disk is replayed from a trace: a `CopyFile` creates its destination and a
 * `RemoveFile` deletes its file (removing an absent file changes nothing, as
 * the source ignores that error). Every removal is taken to succeed: the
 * source ignores any other removal error too, and the copy it failed to
 * delete would stay on disk. A failed copy is the last effect of its crash
 * trace and is not replayed here.
 */
module Cleanup {
  import opened Wrappers
  import opened Host
  import Session

  /** The staged copies on disk after one effect. */
  function After(fs: set<string>, e: Event): (r: set<string>)
    ensures e.CopyFile? ==> e.dest in r
    ensures e.RemoveFile? ==> e.file !in r
    ensures e.CopyFile? ==> r - {e.dest} == fs - {e.dest}
    ensures e.RemoveFile? ==> r + {e.file} == fs + {e.file}
    ensures !e.CopyFile? && !e.RemoveFile? ==> r == fs
  {
    match e
    case CopyFile(_, dest) => fs + {dest}
    case RemoveFile(f) => fs - {f}
    case _ => fs
  }

  /** The staged copies on disk after a trace. */
  function OnDisk(fs: set<string>, t: seq<Event>): set<string>
    decreases |t|
  {
    if t == [] then fs else OnDisk(After(fs, t[0]), t[1..])
  }

  /** The staged copy a handle records, if any. */
  function Copies(h: Handle): (r: set<string>)
    ensures forall f :: f in r <==> h.path == Some(f)
  {
    if h.path.Some? then {h.path.value} else {}
  }

  lemma {:induction false} OnDiskAppend(fs: set<string>, t1: seq<Event>, t2: seq<Event>)
    ensures OnDisk(fs, t1 + t2) == OnDisk(OnDisk(fs, t1), t2)
    decreases |t1|
  {
    if t1 == [] {
      assert t1 + t2 == t2;
    } else {
      assert (t1 + t2)[0] == t1[0];
      assert (t1 + t2)[1..] == t1[1..] + t2;
      OnDiskAppend(After(fs, t1[0]), t1[1..], t2);
    }
  }

  /** Effects other than copies and removals leave the disk alone. */
  lemma {:induction false} OnDiskUntouched(fs: set<string>, t: seq<Event>)
    requires forall i :: 0 <= i < |t| ==> !t[i].CopyFile? && !t[i].RemoveFile?
    ensures OnDisk(fs, t) == fs
    decreases |t|
  {
    if t != [] {
      OnDiskUntouched(fs, t[1..]);
    }
  }

  /** Dropping a handle deletes its staged copy and nothing else. */
  lemma DropRemovesCopy(fs: set<string>, h: Handle)
    ensures OnDisk(fs, Drop(h)) == fs - Copies(h)
  {
    var rm := if h.path.Some? then [RemoveFile(h.path.value)] else [];
    var u := if h.lib.Some? then [Unload(h.lib.value.file)] else [];
    assert Drop(h) == rm + u;
    OnDiskAppend(fs, rm, u);
    OnDiskUntouched(OnDisk(fs, rm), u);
    if h.path.Some? {
      assert OnDisk(fs, rm) == OnDisk(fs - {h.path.value}, []);
    }
  }

  /** The effects of a returning `reload` replace the previous staged copy by
      the new one. */
  lemma ReloadEffectsOnDisk(fs: set<string>, h: Handle, staged: string, display: nat, inits: bool)
    ensures OnDisk(fs, ReloadEffects(h, staged, display, inits)) == (fs - Copies(h)) + {staged}
  {
    var d := if h.lib.Some? then [CallDeinit(h.lib.value.file)] else [];
    var rm := if h.path.Some? then [RemoveFile(h.path.value)] else [];
    var bring := [CopyFile(h.target, staged), SetInstallName(staged), Load(staged)];
    var rest := (if h.lib.Some? then [Unload(h.lib.value.file)] else [])
      + (if inits then [CallInit(staged, display)] else []);
    assert ReloadEffects(h, staged, display, inits) == d + rm + bring + rest;
    OnDiskAppend(fs, d, rm);
    OnDiskAppend(fs, d + rm, bring);
    OnDiskAppend(fs, d + rm + bring, rest);
    OnDiskUntouched(fs, d);
    var fs1 := fs - Copies(h);
    assert OnDisk(fs, rm) == fs1 by {
      if h.path.Some? {
        assert OnDisk(fs, rm) == OnDisk(fs - {h.path.value}, []);
      }
    }
    assert OnDisk(fs1, bring) == fs1 + {staged} by {
      assert bring[1..] == [SetInstallName(staged), Load(staged)];
      OnDiskUntouched(fs1 + {staged}, bring[1..]);
    }
    OnDiskUntouched(fs1 + {staged}, rest);
  }

  /** A `reload` that returns leaves exactly the new staged copy in place of
      the previous one. */
  lemma ReloadOnDisk(fs: set<string>, h: Handle, display: nat, env: Env)
    requires Reload(h, display, env).Ok?
    ensures OnDisk(fs, Reload(h, display, env).trace) == (fs - Copies(h)) + Copies(Reload(h, display, env).handle)
  {
    ReloadTrace(h, display, env);
    ReloadEffectsOnDisk(fs, h, StagedPath(h.target, env.clock), display, env.load.Some?);
  }

  /** Drawing touches no file. */
  lemma DrawOnDisk(fs: set<string>, h: Handle, counter: I32, finishOk: bool)
    ensures OnDisk(fs, Draw(h, counter, finishOk).trace) == fs
  {
    OnDiskUntouched(fs, Draw(h, counter, finishOk).trace);
  }

  /** Commands that return leave on disk exactly the staged copy the handle
      records. */
  lemma {:induction false} PlayOnDisk(h: Handle, display: nat, cmds: seq<Session.Command>)
    requires Session.Play(h, display, cmds).Ok?
    ensures OnDisk(Copies(h), Session.Play(h, display, cmds).trace) == Copies(Session.Play(h, display, cmds).handle)
    decreases |cmds|
  {
    if cmds != [] {
      var r1 := Session.Perform(h, display, cmds[0]);
      match cmds[0] {
        case ReloadCmd(env) => ReloadOnDisk(Copies(h), h, display, env);
        case DrawCmd(counter, finishOk) => DrawOnDisk(Copies(h), h, counter, finishOk);
      }
      assert OnDisk(Copies(h), r1.trace) == Copies(r1.handle);
      PlayOnDisk(r1.handle, display, cmds[1..]);
      OnDiskAppend(Copies(h), r1.trace, Session.Play(r1.handle, display, cmds[1..]).trace);
    }
  }

  /** A session that returns, followed by dropping its handle, leaves no
      staged copy on disk. */
  lemma SessionLeavesNoCopy(target: string, display: nat, env: Env, cmds: seq<Session.Command>)
    requires Session.Session(target, display, env, cmds).Ok?
    ensures var r := Session.Session(target, display, env, cmds);
      OnDisk({}, r.trace + Drop(r.handle)) == {}
  {
    var h0 := Handle(target, None, None);
    var r0 := New(target, display, env);
    assert r0 == Reload(h0, display, env) && r0.Ok?;
    ReloadOnDisk({}, h0, display, env);
    assert OnDisk({}, r0.trace) == Copies(r0.handle);
    var p := Session.Play(r0.handle, display, cmds);
    PlayOnDisk(r0.handle, display, cmds);
    var r := Session.Session(target, display, env, cmds);
    assert r.trace == r0.trace + p.trace && r.handle == p.handle;
    OnDiskAppend({}, r0.trace, p.trace);
    assert OnDisk({}, r.trace) == Copies(p.handle);
    OnDiskAppend({}, r.trace, Drop(r.handle));
    DropRemovesCopy(Copies(p.handle), p.handle);
  }

  /** When `install_name_tool` cannot run, the new staged copy stays on disk
      after unwinding: the dropped handle still names the previous copy. */
  lemma InstallNameCrashLeaks(h: Handle, display: nat, env: Env)
    requires h.lib.Some? ==> DeinitEntry in h.lib.value.exports
    requires env.clock >= 0 && env.copyOk && !env.installNameOk
    requires h.path != Some(StagedPath(h.target, env.clock))
    ensures OnDisk(Copies(h), Unwind(h, display, env)) == {StagedPath(h.target, env.clock)}
  {
    var staged := StagedPath(h.target, env.clock);
    var d := if h.lib.Some? then [CallDeinit(h.lib.value.file)] else [];
    var rm := if h.path.Some? then [RemoveFile(h.path.value)] else [];
    var bring := [CopyFile(h.target, staged), SetInstallName(staged)];
    Session.InstallNameCrashTrace(h, display, env);
    var crash := Reload(h, display, env).trace;
    assert crash == d + rm + bring;
    var ph := PanicHandle(h, display, env);
    assert ph.path == h.path;
    OnDiskUntouched(Copies(h), d);
    OnDiskAppend(Copies(h), d, rm);
    assert OnDisk(Copies(h), d + rm) == {} by {
      if h.path.Some? {
        assert OnDisk(Copies(h), rm) == OnDisk({}, []);
      }
    }
    OnDiskAppend(Copies(h), d + rm, bring);
    assert OnDisk({}, bring) == {staged} by {
      assert bring[1..] == [SetInstallName(staged)];
      assert After({}, bring[0]) == {staged};
      assert OnDisk({}, bring) == OnDisk({staged}, bring[1..]);
      OnDiskUntouched({staged}, bring[1..]);
    }
    OnDiskAppend(Copies(h), crash, Drop(ph));
    DropRemovesCopy({staged}, ph);
  }

  /** When the new library lacks `init`, unwinding drops a handle that
      already names the new copy, so no staged copy is left. */
  lemma MissingInitCrashCleans(h: Handle, display: nat, env: Env)
    requires h.lib.Some? ==> DeinitEntry in h.lib.value.exports
    requires env.clock >= 0 && env.copyOk && env.installNameOk
    requires env.load.Some? && InitEntry !in env.load.value
    ensures OnDisk(Copies(h), Unwind(h, display, env)) == {}
  {
    var staged := StagedPath(h.target, env.clock);
    var crash := Reload(h, display, env).trace;
    Session.ReloadLateTrace(h, display, env);
    var loaded := Session.LoadedPrefix(h, staged);
    assert crash == loaded + [];
    assert loaded + [] == loaded;
    assert loaded == ReloadEffects(h, staged, display, false);
    ReloadEffectsOnDisk(Copies(h), h, staged, display, false);
    assert (Copies(h) - Copies(h)) + {staged} == {staged};
    assert OnDisk(Copies(h), crash) == {staged};
    var ph := PanicHandle(h, display, env);
    assert ph.path == Some(staged);
    assert Unwind(h, display, env) == crash + Drop(ph);
    OnDiskAppend(Copies(h), crash, Drop(ph));
    DropRemovesCopy({staged}, ph);
  }
}

=== FILE: decimal.dfy ===
/**
 * Decimal rendering of a non-negative integer, as Rust's `{}` formats the
 * `u64` seconds in the staged library name (src/handle.rs).
 */
module Decimal {

  predicate IsDigit(c: char) {
    '0' <= c <= '9'
  }

  predicate AllDigits(s: string) {
    forall i :: 0 <= i < |s| ==> IsDigit(s[i])
  }

  function DigitValue(c: char): (d: nat)
    requires IsDigit(c)
    ensures d < 10
  {
    (c as int) - ('0' as int)
  }

  function DigitChar(d: nat): (c: char)
    requires d < 10
    ensures IsDigit(c) && DigitValue(c) == d
  {
    (('0' as int) + d) as char
  }

  /** The shortest decimal numeral of `n`: at least one digit, and no leading
      zero unless `n` is zero. */
  function Show(n: nat): (s: string)
    ensures |s| >= 1 && AllDigits(s)
    ensures s[0] == '0' ==> n == 0 && s == "0"
    decreases n
  {
    if n < 10 then [DigitChar(n)] else Show(n / 10) + [DigitChar(n % 10)]
  }

  /** The value a string of digits denotes. */
  function Parse(s: string): nat
    requires AllDigits(s)
    decreases |s|
  {
    if s == [] then 0 else 10 * Parse(s[..|s| - 1]) + DigitValue(s[|s| - 1])
  }

  lemma {:induction false} ParseShow(n: nat)
    ensures Parse(Show(n)) == n
    decreases n
  {
    if n >= 10 {
      var s := Show(n);
      assert s[..|s| - 1] == Show(n / 10);
      ParseShow(n / 10);
    }
  }

  /** Different numbers get different numerals. */
  lemma ShowInjective(m: nat, n: nat)
    ensures Show(m) == Show(n) <==> m == n
  {
    ParseShow(m);
    ParseShow(n);
  }
}

=== FILE: host.dfy ===
/**
 * The host side of the live-reload protocol: `Handle` in src/handle.rs.
 *
 * A handle owns at most one loaded copy of the module library and the name of
 * the staged copy of the build artifact it was loaded from. Every external
 * effect (calling an entry point, touching a file, loading or unloading a
 * library, finishing the frame) is an `Event` appended to a trace. What the
 * outside world answers (the clock, whether the copy and the
 * `install_name_tool` run succeed, what the loader resolves, whether the
 * frame can be finished) is an input. A Rust panic ends a run: `Crash` keeps
 * the effects that happened before it. Under unwinding the owner then drops
 * the handle as the panic left it; `Unwind` appends the effects of that drop
 * to a panicking `reload`.
 */
module Host {
  import opened Wrappers
  import Live
  import Decimal

  /** `i32`, the frame counter's type. */
  type I32 = x: int | -0x8000_0000 <= x < 0x8000_0000

  /** The three symbols a module library exports. */
  datatype Entry = InitEntry | DrawEntry | DeinitEntry

  /** A loaded library: the staged file it came from, the entry points the
      loader can resolve in it, and the module's own `STATE` static. */
  datatype Library = Library(file: string, exports: set<Entry>, slot: Live.Slot)

  /** `Handle { target, lib, path }`. */
  datatype Handle = Handle(target: string, lib: Option<Library>, path: Option<string>)

  datatype Event =
    | CallDeinit(file: string)
    | RemoveFile(file: string)
    | CopyFile(source: string, dest: string)
    | SetInstallName(file: string)
    | Load(file: string)
    | Unload(file: string)
    | CallInit(file: string, display: nat)
    | CallDraw(file: string, counter: I32)
    | FinishFrame

  /** Why a run panicked: an `unwrap` or `expect` that failed. */
  datatype Panic =
    | MissingEntry(entry: Entry)
    | StateUnset
    | ClockBeforeEpoch
    | CopyFailed
    | InstallNameFailed
    | FinishFailed

  datatype Run = Ok(handle: Handle, trace: seq<Event>) | Crash(trace: seq<Event>, panic: Panic)

  /** The world's answers during one `reload`: the clock in whole seconds
      since the Unix epoch (negative before it), whether `fs::copy` succeeds,
      whether `install_name_tool` can be spawned and waited for, and what
      `Library::new` returns (`None` for a load error, otherwise the entry
      points the library exports). */
  datatype Env = Env(clock: int, copyOk: bool, installNameOk: bool, load: Option<set<Entry>>)

  /** The staged copy's name, `"{target}.{secs}"`. */
  function StagedPath(target: string, secs: nat): (p: string)
    ensures |p| > |target| + 1 && p[..|target|] == target && p[|target|] == '.'
  {
    target + "." + Decimal.Show(secs)
  }

  /** Two reloads stage to the same file exactly when they read the same
      second, and a staged copy is never the artifact itself. */
  lemma StagedPathInjective(target: string, s1: nat, s2: nat)
    ensures StagedPath(target, s1) == StagedPath(target, s2) <==> s1 == s2
    ensures StagedPath(target, s1) != target
  {
    var p1, p2 := StagedPath(target, s1), StagedPath(target, s2);
    assert p1[|target| + 1..] == Decimal.Show(s1);
    assert p2[|target| + 1..] == Decimal.Show(s2);
    Decimal.ShowInjective(s1, s2);
  }

  /** The cross-file invariant: whenever the handle holds a library, that
      library's module has its `STATE` set. */
  predicate Coherent(h: Handle) {
    h.lib.Some? ==> h.lib.value.slot.state.Some?
  }

  /** `e1` occurs somewhere strictly before an occurrence of `e2`. */
  predicate Before(t: seq<Event>, e1: Event, e2: Event) {
    exists i, j :: 0 <= i < j < |t| && t[i] == e1 && t[j] == e2
  }

  /** `Handle::deinit`: calls the module's `deinit` when a library is held;
      otherwise does nothing. The library stays held. */
  function Deinit(h: Handle): (r: Run)
    ensures h.lib.None? ==> r == Ok(h, [])
    ensures h.lib.Some? ==> (r.Ok? <==> DeinitEntry in h.lib.value.exports)
    ensures r.Crash? ==> r.trace == [] && r.panic == MissingEntry(DeinitEntry)
    ensures r.Ok? && h.lib.Some? ==>
      && r.trace == [CallDeinit(h.lib.value.file)]
      && r.handle.target == h.target && r.handle.path == h.path
      && r.handle.lib.Some?
      && r.handle.lib.value.file == h.lib.value.file
      && r.handle.lib.value.exports == h.lib.value.exports
      && r.handle.lib.value.slot.state.None?
  {
    match h.lib
    case None => Ok(h, [])
    case Some(lib) =>
      if DeinitEntry !in lib.exports then Crash([], MissingEntry(DeinitEntry))
      else Ok(h.(lib := Some(lib.(slot := Live.Deinit(lib.slot)))), [CallDeinit(lib.file)])
  }

  /** `Handle::init`: calls the module's `init` with the display when a
      library is held; otherwise does nothing. */
  function Init(h: Handle, display: nat): (r: Run)
    ensures h.lib.None? ==> r == Ok(h, [])
    ensures h.lib.Some? ==> (r.Ok? <==> InitEntry in h.lib.value.exports)
    ensures r.Crash? ==> r.trace == [] && r.panic == MissingEntry(InitEntry)
    ensures r.Ok? ==> Coherent(r.handle)
    ensures r.Ok? && h.lib.Some? ==>
      && r.trace == [CallInit(h.lib.value.file, display)]
      && r.handle.target == h.target && r.handle.path == h.path
      && r.handle.lib.Some?
      && r.handle.lib.value.file == h.lib.value.file
      && r.handle.lib.value.exports == h.lib.value.exports
      && r.handle.lib.value.slot.state == Some(Live.Scene(display))
  {
    match h.lib
    case None => Ok(h, [])
    case Some(lib) =>
      if InitEntry !in lib.exports then Crash([], MissingEntry(InitEntry))
      else Ok(h.(lib := Some(lib.(slot := Live.Init(lib.slot, display)))), [CallInit(lib.file, display)])
  }

  /** `Handle::draw`: dispatches to the module's `draw`, with the counter
      unchanged, exactly when a library is held, and finishes the frame in
      both cases. Drawing changes nothing in the handle. */
  function Draw(h: Handle, counter: I32, finishOk: bool): (r: Run)
    ensures r.Ok? ==> r.handle == h
    ensures r.Ok? ==> |r.trace| >= 1 && r.trace[|r.trace| - 1] == FinishFrame
    ensures h.lib.None? ==> r.trace == [FinishFrame]
    ensures h.lib.Some? && DrawEntry in h.lib.value.exports ==>
      |r.trace| >= 1 && r.trace[0] == CallDraw(h.lib.value.file, counter)
    ensures forall i :: 0 <= i < |r.trace| && r.trace[i].CallDraw? ==>
      i == 0 && h.lib.Some? && r.trace[i] == CallDraw(h.lib.value.file, counter)
    ensures r.Crash? <==>
      || !finishOk
      || (h.lib.Some? && (DrawEntry !in h.lib.value.exports || h.lib.value.slot.state.None?))
    ensures r.Crash? && r.panic == StateUnset ==> !Coherent(h)
    ensures |r.trace| <= 2 && forall i :: 0 <= i < |r.trace| ==> r.trace[i].CallDraw? || r.trace[i].FinishFrame?
    ensures h.lib.Some? && DrawEntry !in h.lib.value.exports ==> r == Crash([], MissingEntry(DrawEntry))
    ensures h.lib.Some? && DrawEntry in h.lib.value.exports && h.lib.value.slot.state.None? ==>
      r == Crash([CallDraw(h.lib.value.file, counter)], StateUnset)
  {
    match h.lib
    case None =>
      if finishOk then Ok(h, [FinishFrame]) else Crash([FinishFrame], FinishFailed)
    case Some(lib) =>
      if DrawEntry !in lib.exports then Crash([], MissingEntry(DrawEntry))
      else
        match Live.Draw(lib.slot, counter)
        case Panicked => Crash([CallDraw(lib.file, counter)], StateUnset)
        case Rendered(_, _, _) =>
          var t := [CallDraw(lib.file, counter), FinishFrame];
          if finishOk then Ok(h, t) else Crash(t, FinishFailed)
  }

  /** The conditions under which `reload` panics: the old library lacks
      `deinit`, the clock is before the epoch, the copy or `install_name_tool`
      fails, or the new library loads but lacks `init`. A failed load is not
      among them. */
  predicate ReloadPanics(h: Handle, env: Env) {
    || (h.lib.Some? && DeinitEntry !in h.lib.value.exports)
    || env.clock < 0
    || !env.copyOk
    || !env.installNameOk
    || (env.load.Some? && InitEntry !in env.load.value)
  }

  /** `Handle::reload`: deinitialise the held library, remove the previous
      staged copy (ignoring failure), copy the artifact to a new staged name,
      rewrite its install name, load it (the old library is released only
      after the new load returns), record the new path whether or not the
      load succeeded, and initialise whatever was loaded. */
  function Reload(h: Handle, display: nat, env: Env): (r: Run)
    ensures r.Crash? <==> ReloadPanics(h, env)
    ensures r.Crash? ==> r.panic != StateUnset
    ensures r.Ok? ==>
      && r.handle.target == h.target
      && r.handle.path == Some(StagedPath(h.target, env.clock))
      && (r.handle.lib.Some? <==> env.load.Some?)
      && Coherent(r.handle)
    ensures r.Ok? && r.handle.lib.Some? ==>
      r.handle.lib.value == Library(StagedPath(h.target, env.clock), env.load.value,
                                    Live.Init(Live.Fresh, display))
  {
    match Deinit(h)
    case Crash(t, p) => Crash(t, p)
    case Ok(h1, t1) =>
      var t2 := t1 + (if h1.path.Some? then [RemoveFile(h1.path.value)] else []);
      if env.clock < 0 then Crash(t2, ClockBeforeEpoch)
      else
        var staged := StagedPath(h1.target, env.clock);
        var t3 := t2 + [CopyFile(h1.target, staged)];
        if !env.copyOk then Crash(t3, CopyFailed)
        else
          var t4 := t3 + [SetInstallName(staged)];
          if !env.installNameOk then Crash(t4, InstallNameFailed)
          else
            var loaded := match env.load
              case None => None
              case Some(exports) => Some(Library(staged, exports, Live.Fresh));
            var t5 := t4 + [Load(staged)] + (if h1.lib.Some? then [Unload(h1.lib.value.file)] else []);
            match Init(Handle(h1.target, loaded, Some(staged)), display)
            case Crash(t6, p) => Crash(t5 + t6, p)
            case Ok(h2, t6) => Ok(h2, t5 + t6)
  }

  /** `Handle::new`: an empty handle followed by exactly one `reload`. With
      nothing held yet, the first effect is the copy: nothing is
      deinitialised, removed or unloaded. */
  function New(target: string, display: nat, env: Env): (r: Run)
    ensures r.Crash? <==> env.clock < 0 || !env.copyOk || !env.installNameOk || (env.load.Some? && InitEntry !in env.load.value)
    ensures r.Ok? ==>
      && r.handle.target == target
      && r.handle.path == Some(StagedPath(target, env.clock))
      && (r.handle.lib.Some? <==> env.load.Some?)
      && Coherent(r.handle)
      && |r.trace| >= 3
      && r.trace[0] == CopyFile(target, StagedPath(target, env.clock))
    ensures forall i :: 0 <= i < |r.trace| ==>
      !r.trace[i].CallDeinit? && !r.trace[i].RemoveFile? && !r.trace[i].Unload?
  {
    Reload(Handle(target, None, None), display, env)
  }

  /** `Drop for Handle`: removes the staged copy, then releases the library
      as the fields are dropped. The module's `deinit` is not called. */
  function Drop(h: Handle): (r: seq<Event>)
    ensures forall i :: 0 <= i < |r| ==> !r[i].CallDeinit? && !r[i].CallDraw? && !r[i].CallInit?
    ensures h.path.Some? ==> |r| >= 1 && r[0] == RemoveFile(h.path.value)
    ensures forall i :: 0 <= i < |r| && r[i].RemoveFile? ==> h.path == Some(r[i].file)
    ensures forall i :: 0 <= i < |r| && r[i].Unload? ==> i == |r| - 1 && h.lib.Some? && r[i].file == h.lib.value.file
    ensures h.lib.Some? ==> |r| >= 1 && r[|r| - 1] == Unload(h.lib.value.file)
    ensures forall i :: 0 <= i < |r| ==> r[i].RemoveFile? || r[i].Unload?
    ensures |r| <= 2 && (h.path.None? && h.lib.None? ==> r == [])
  {
    (if h.path.Some? then [RemoveFile(h.path.value)] else [])
    + (if h.lib.Some? then [Unload(h.lib.value.file)] else [])
  }

  /** The handle as a panicking `reload` leaves it; its owner (the caller,
      or `h` inside `Handle::new`) drops it while unwinding. Until the load
      the path still names the previous staged copy, already removed, and the
      library is the old one; only a panic in the final `init` comes after
      the new library and path are stored. */
  function PanicHandle(h: Handle, display: nat, env: Env): (r: Handle)
    requires ReloadPanics(h, env)
    ensures r.target == h.target
    ensures env.load.None? || InitEntry in env.load.value ==> r.path == h.path
    ensures r.path != h.path ==> env.clock >= 0 && r.path == Some(StagedPath(h.target, env.clock))
    ensures r.lib.Some? && r.path != h.path ==> r.lib.value.file == r.path.value
    ensures ((h.lib.None? || DeinitEntry in h.lib.value.exports)
             && env.clock >= 0 && env.copyOk && env.installNameOk) ==>
      r.path == Some(StagedPath(h.target, env.clock)) && r.lib.Some? && r.lib.value.file == r.path.value
  {
    match Deinit(h)
    case Crash(_, _) => h
    case Ok(h1, _) =>
      if env.clock < 0 || !env.copyOk || !env.installNameOk then h1
      else
        var staged := StagedPath(h1.target, env.clock);
        Handle(h1.target, Some(Library(staged, env.load.value, Live.Fresh)), Some(staged))
  }

  /** All effects of a panicking `reload` under unwinding: the effects made
      before the panic, then the drop of the handle as the panic left it. */
  function Unwind(h: Handle, display: nat, env: Env): (t: seq<Event>)
    requires ReloadPanics(h, env)
    ensures var crash := Reload(h, display, env).trace;
      |crash| <= |t| && t[..|crash|] == crash
    ensures forall i :: |Reload(h, display, env).trace| <= i < |t| ==> t[i].RemoveFile? || t[i].Unload?
  {
    var crash := Reload(h, display, env).trace;
    var d := Drop(PanicHandle(h, display, env));
    assert (crash + d)[..|crash|] == crash;
    crash + d
  }

  /** The effects of a `reload` that returns, in order: the old library's
      `deinit`, removal of the old staged copy, copy, install-name rewrite,
      load, release of the old library, `init` of the new one. */
  function ReloadEffects(h: Handle, staged: string, display: nat, inits: bool): seq<Event>
  {
    (if h.lib.Some? then [CallDeinit(h.lib.value.file)] else [])
    + (if h.path.Some? then [RemoveFile(h.path.value)] else [])
    + [CopyFile(h.target, staged), SetInstallName(staged), Load(staged)]
    + (if h.lib.Some? then [Unload(h.lib.value.file)] else [])
    + (if inits then [CallInit(staged, display)] else [])
  }

  lemma ReloadTrace(h: Handle, display: nat, env: Env)
    requires Reload(h, display, env).Ok?
    ensures env.clock >= 0 && Reload(h, display, env).trace ==
      ReloadEffects(h, StagedPath(h.target, env.clock), display, env.load.Some?)
  {
  }

  /** The teardown half of `ReloadEffects`: the `deinit` comes first and
      alone, and only the previous staged copy is removed, before the copy. */
  lemma EffectsTearDownFirst(h: Handle, staged: string, display: nat, inits: bool)
    ensures var t := ReloadEffects(h, staged, display, inits);
      && (h.lib.Some? ==> t[0] == CallDeinit(h.lib.value.file))
      && (forall i :: 0 <= i < |t| && t[i].CallDeinit? ==> i == 0 && h.lib.Some? && t[i].file == h.lib.value.file)
      && (h.path.Some? ==> Before(t, RemoveFile(h.path.value), CopyFile(h.target, staged)))
      && (forall i :: 0 <= i < |t| && t[i].RemoveFile? ==> h.path == Some(t[i].file))
  {
    var t := ReloadEffects(h, staged, display, inits);
    var d := if h.lib.Some? then [CallDeinit(h.lib.value.file)] else [];
    var rm := if h.path.Some? then [RemoveFile(h.path.value)] else [];
    var rest := [CopyFile(h.target, staged), SetInstallName(staged), Load(staged)]
      + (if h.lib.Some? then [Unload(h.lib.value.file)] else [])
      + (if inits then [CallInit(staged, display)] else []);
    assert t == d + rm + rest;
    forall i | |d| + |rm| <= i < |t|
      ensures !t[i].CallDeinit? && !t[i].RemoveFile?
    {
      assert t[i] == rest[i - |d| - |rm|];
    }
    if h.path.Some? {
      assert t[|d|] == RemoveFile(h.path.value);
      assert t[|d| + 1] == CopyFile(h.target, staged);
    }
  }

  /** In a `reload` that returns, the held library's `deinit` is the first
      effect and the only `deinit`; the previous staged copy, and only it, is
      removed, and before the new copy is made. */
  lemma ReloadTearsDownFirst(h: Handle, display: nat, env: Env)
    requires Reload(h, display, env).Ok?
    ensures env.clock >= 0
    ensures var t := Reload(h, display, env).trace;
      && (h.lib.Some? ==> t[0] == CallDeinit(h.lib.value.file))
      && (forall i :: 0 <= i < |t| && t[i].CallDeinit? ==> i == 0 && h.lib.Some? && t[i].file == h.lib.value.file)
      && (h.path.Some? ==> Before(t, RemoveFile(h.path.value), CopyFile(h.target, StagedPath(h.target, env.clock))))
      && (forall i :: 0 <= i < |t| && t[i].RemoveFile? ==> h.path == Some(t[i].file))
  {
    ReloadTrace(h, display, env);
    EffectsTearDownFirst(h, StagedPath(h.target, env.clock), display, env.load.Some?);
  }

  /** The bring-up half of `ReloadEffects`: copy, rename, load in order, and
      the old library released and the new one initialised after the load. */
  lemma EffectsBringUpOrder(h: Handle, staged: string, display: nat, inits: bool)
    ensures var t := ReloadEffects(h, staged, display, inits);
      && Before(t, CopyFile(h.target, staged), SetInstallName(staged))
      && Before(t, SetInstallName(staged), Load(staged))
      && (h.lib.Some? ==> Before(t, Load(staged), Unload(h.lib.value.file)))
      && (inits ==> Before(t, Load(staged), CallInit(staged, display)))
  {
    var t := ReloadEffects(h, staged, display, inits);
    var pre := (if h.lib.Some? then [CallDeinit(h.lib.value.file)] else [])
      + (if h.path.Some? then [RemoveFile(h.path.value)] else []);
    var mid := [CopyFile(h.target, staged), SetInstallName(staged), Load(staged)];
    var u := if h.lib.Some? then [Unload(h.lib.value.file)] else [];
    var ini := if inits then [CallInit(staged, display)] else [];
    assert t == pre + mid + u + ini;
    var c := |pre|;
    assert t[c] == CopyFile(h.target, staged);
    assert t[c + 1] == SetInstallName(staged);
    assert t[c + 2] == Load(staged);
    if h.lib.Some? {
      assert t[c + 3] == Unload(h.lib.value.file);
    }
    if inits {
      assert t[|t| - 1] == CallInit(staged, display);
    }
  }

  /** In `ReloadEffects`, `init` is called at most once, last, on the new
      copy, and nothing is drawn. */
  lemma EffectsInitLast(h: Handle, staged: string, display: nat, inits: bool)
    ensures var t := ReloadEffects(h, staged, display, inits);
      && (forall i :: 0 <= i < |t| && t[i].CallInit? ==> i == |t| - 1 && t[i] == CallInit(staged, display))
      && (forall i :: 0 <= i < |t| ==> !t[i].CallDraw? && !t[i].FinishFrame?)
  {
    var t := ReloadEffects(h, staged, display, inits);
    var front := (if h.lib.Some? then [CallDeinit(h.lib.value.file)] else [])
      + (if h.path.Some? then [RemoveFile(h.path.value)] else [])
      + [CopyFile(h.target, staged), SetInstallName(staged), Load(staged)]
      + (if h.lib.Some? then [Unload(h.lib.value.file)] else []);
    var ini := if inits then [CallInit(staged, display)] else [];
    assert t == front + ini;
    forall i | 0 <= i < |t|
      ensures !t[i].CallDraw? && !t[i].FinishFrame?
      ensures t[i].CallInit? ==> i == |t| - 1 && t[i] == CallInit(staged, display)
    {
      if i < |front| {
        assert t[i] == front[i];
      } else {
        assert t[i] == ini[i - |front|];
      }
    }
  }

  /** In a `reload` that returns, the new staged copy is made, renamed and
      loaded in that order; the old library is released only after the new
      load; and `init`, if called, is the last effect, is called once, and
      only on the freshly loaded library. Nothing is drawn. */
  lemma ReloadBringsUpLast(h: Handle, display: nat, env: Env)
    requires Reload(h, display, env).Ok?
    ensures env.clock >= 0
    ensures var t := Reload(h, display, env).trace;
      var staged := StagedPath(h.target, env.clock);
      && Before(t, CopyFile(h.target, staged), SetInstallName(staged))
      && Before(t, SetInstallName(staged), Load(staged))
      && (h.lib.Some? ==> Before(t, Load(staged), Unload(h.lib.value.file)))
      && (env.load.Some? ==> Before(t, Load(staged), CallInit(staged, display)))
      && (forall i :: 0 <= i < |t| && t[i].CallInit? ==> i == |t| - 1 && t[i] == CallInit(staged, display))
      && (forall i :: 0 <= i < |t| ==> !t[i].CallDraw? && !t[i].FinishFrame?)
  {
    ReloadTrace(h, display, env);
    EffectsBringUpOrder(h, StagedPath(h.target, env.clock), display, env.load.Some?);
    EffectsInitLast(h, StagedPath(h.target, env.clock), display, env.load.Some?);
  }
}

=== FILE: icosphere.dfy ===
/**
 * Icosphere subdivision (src/draw/icosphere.rs), taken combinatorially.
 *
 * The base icosahedron's twelve golden-ratio corners and the floating-point
 * centres are kept symbolic: a vertex is a corner number, or the centre of
 * the vertices at two earlier indices. An edge map memoises the index of each
 * edge's midpoint under the key (min, max), so the two triangles sharing an
 * edge share its midpoint. Each level replaces every triangle by four.
 */
module Icosphere {

  /** A vertex: one of the twelve base corners, or the centre of the vertices
      at indices `a` and `b`, in the order `edge` received them. */
  datatype Point = Corner(k: nat) | Center(a: nat, b: nat)

  /** A vertex after normalisation: `p` scaled onto the sphere of `radius`. */
  datatype SpherePoint = Projected(p: Point, radius: real)

  /** A triangle's three vertex indices, `[t[0], t[1], t[2]]`. */
  datatype Tri = Tri(a: nat, b: nat, c: nat)

  /** An edge-map key `(min(a, b), max(a, b))`. */
  datatype Key = Key(lo: nat, hi: nat)

  /** The growing vertex list and the edge map. */
  datatype Memo = Memo(vs: seq<Point>, edges: map<Key, nat>)

  datatype Step = Step(memo: Memo, index: nat)

  datatype Split = Split(memo: Memo, tris: seq<Tri>)

  /** `u8`, the type of the level argument. */
  type U8 = x: int | 0 <= x < 0x100

  const U32Limit: nat := 0x1_0000_0000

  /** The twelve golden-ratio corners, numbered as in the source. */
  function BaseVertices(): (vs: seq<Point>)
    ensures |vs| == 12 && forall i :: 0 <= i < 12 ==> vs[i] == Corner(i)
  {
    [Corner(0), Corner(1), Corner(2), Corner(3), Corner(4), Corner(5),
     Corner(6), Corner(7), Corner(8), Corner(9), Corner(10), Corner(11)]
  }

  const BaseTriangles: seq<Tri> := [
    Tri(0, 4, 1), Tri(0, 9, 4), Tri(9, 5, 4), Tri(4, 5, 8), Tri(4, 8, 1),
    Tri(8, 10, 1), Tri(8, 3, 10), Tri(5, 3, 8), Tri(5, 2, 3), Tri(2, 7, 3),
    Tri(7, 10, 3), Tri(7, 6, 10), Tri(7, 11, 6), Tri(11, 0, 6), Tri(0, 1, 6),
    Tri(6, 1, 10), Tri(9, 0, 11), Tri(9, 11, 2), Tri(9, 2, 5), Tri(7, 2, 11)]

  function Pow4(n: nat): (p: nat)
    ensures p >= 1
  {
    if n == 0 then 1 else 4 * Pow4(n - 1)
  }

  predicate InBounds(t: Tri, n: nat) {
    t.a < n && t.b < n && t.c < n
  }

  predicate AllInBounds(ts: seq<Tri>, n: nat) {
    forall i :: 0 <= i < |ts| ==> InBounds(ts[i], n)
  }

  /** The base mesh: 12 vertices, 20 triangles, every index below 12. */
  lemma BaseMesh()
    ensures |BaseVertices()| == 12 && |BaseTriangles| == 20
    ensures AllInBounds(BaseTriangles, |BaseVertices()|)
  {
  }

  function EdgeKey(a: nat, b: nat): (k: Key)
    ensures k.lo <= k.hi
  {
    Key(if a <= b then a else b, if a <= b then b else a)
  }

  lemma EdgeKeySymmetric(a: nat, b: nat)
    ensures EdgeKey(a, b) == EdgeKey(b, a)
  {
  }

  /** Every recorded edge has its endpoints before its midpoint, and the
      midpoint is the centre of exactly those endpoints. */
  ghost predicate Valid(m: Memo) {
    forall k | k in m.edges ::
      && k.lo <= k.hi < m.edges[k] < |m.vs|
      && m.vs[m.edges[k]].Center?
      && EdgeKey(m.vs[m.edges[k]].a, m.vs[m.edges[k]].b) == k
  }

  /** `m'` is `m` with vertices appended and edges added: nothing reordered,
      removed or remapped. */
  ghost predicate Extends(m: Memo, m': Memo) {
    && |m.vs| <= |m'.vs|
    && m'.vs[..|m.vs|] == m.vs
    && Grows(m.edges, m'.edges)
  }

  /** `e'` keeps every entry of `e`. */
  ghost predicate Grows(e: map<Key, nat>, e': map<Key, nat>) {
    forall k | k in e :: k in e' && e'[k] == e[k]
  }

  lemma ExtendsTransitive(m1: Memo, m2: Memo, m3: Memo)
    requires Extends(m1, m2) && Extends(m2, m3)
    ensures Extends(m1, m3)
  {
    assert m3.vs[..|m1.vs|] == m3.vs[..|m2.vs|][..|m1.vs|];
  }

  /** The `edge` closure: the index of the midpoint of `a`-`b`, appending it
      to the vertex list the first time the edge is seen. */
  function Edge(m: Memo, a: nat, b: nat): (r: Step)
    requires Valid(m) && a < |m.vs| && b < |m.vs|
    ensures Valid(r.memo) && Extends(m, r.memo)
    ensures EdgeKey(a, b) in r.memo.edges && r.memo.edges[EdgeKey(a, b)] == r.index
    ensures r.memo.edges.Keys == m.edges.Keys + {EdgeKey(a, b)}
    ensures EdgeKey(a, b) in m.edges ==> r.memo == m
    ensures EdgeKey(a, b) !in m.edges ==>
      && r.index == |m.vs|
      && r.memo.vs == m.vs + [Center(a, b)]
  {
    var k := EdgeKey(a, b);
    if k !in m.edges then
      Step(Memo(m.vs + [Center(a, b)], m.edges[k := |m.vs|]), |m.vs|)
    else
      Step(m, m.edges[k])
  }

  /** `edge(a, b)` and `edge(b, a)` return the same index and leave the same
      edge map. */
  lemma EdgeSymmetric(m: Memo, a: nat, b: nat)
    requires Valid(m) && a < |m.vs| && b < |m.vs|
    ensures Edge(m, a, b).index == Edge(m, b, a).index
    ensures Edge(m, a, b).memo.edges == Edge(m, b, a).memo.edges
  {
    EdgeKeySymmetric(a, b);
  }

  /** Once `edge(a, b)` has run, both `edge(a, b)` and `edge(b, a)` return
      the same index again without growing anything. */
  lemma EdgeRepeat(m: Memo, a: nat, b: nat)
    requires Valid(m) && a < |m.vs| && b < |m.vs|
    ensures var s := Edge(m, a, b);
      Edge(s.memo, a, b) == s && Edge(s.memo, b, a) == s
  {
    EdgeKeySymmetric(a, b);
    var s := Edge(m, a, b);
    EdgeHit(s.memo, a, b);
    EdgeHit(s.memo, b, a);
  }

  /** A call on an edge already in the map returns its midpoint and changes
      nothing. */
  lemma EdgeHit(m: Memo, a: nat, b: nat)
    requires Valid(m) && a < |m.vs| && b < |m.vs| && EdgeKey(a, b) in m.edges
    ensures Edge(m, a, b) == Step(m, m.edges[EdgeKey(a, b)])
  {
  }

  lemma FourInBounds(t0: Tri, t1: Tri, t2: Tri, t3: Tri, n: nat)
    requires InBounds(t0, n) && InBounds(t1, n) && InBounds(t2, n) && InBounds(t3, n)
    ensures AllInBounds([t0, t1, t2, t3], n)
  {
    var ts := [t0, t1, t2, t3];
    forall i | 0 <= i < 4
      ensures InBounds(ts[i], n)
    {
      if i == 0 {} else if i == 1 {} else if i == 2 {} else {}
    }
  }

  /** Three midpoint indices, in call order. */
  datatype Mids = Mids(memo: Memo, x: nat, y: nat, z: nat)

  /** The first three `edge` calls of a triangle, `edge(t[0], t[1])`,
      `edge(t[0], t[2])`, `edge(t[1], t[2])`: they record its three edges,
      adding at most three vertices. */
  method OpenEdges(m: Memo, t: Tri) returns (r: Mids)
    requires Valid(m) && InBounds(t, |m.vs|)
    ensures Valid(r.memo) && Extends(m, r.memo)
    ensures |r.memo.vs| <= |m.vs| + 3
    ensures var e := r.memo.edges;
      && EdgeKey(t.a, t.b) in e && EdgeKey(t.b, t.c) in e && EdgeKey(t.c, t.a) in e
      && r.x == e[EdgeKey(t.a, t.b)] && r.y == e[EdgeKey(t.c, t.a)] && r.z == e[EdgeKey(t.b, t.c)]
  {
    var s1 := Edge(m, t.a, t.b);
    var s2 := Edge(s1.memo, t.a, t.c);
    var s3 := Edge(s2.memo, t.b, t.c);
    ExtendsTransitive(m, s1.memo, s2.memo);
    ExtendsTransitive(m, s2.memo, s3.memo);
    EdgeKeySymmetric(t.a, t.c);
    r := Mids(s3.memo, s1.index, s2.index, s3.index);
  }

  /** Three further `edge` calls on edges already in the map: they return
      the recorded midpoints and change nothing. */
  method Revisit(m: Memo, a1: nat, b1: nat, a2: nat, b2: nat, a3: nat, b3: nat) returns (r: Mids)
    requires Valid(m)
    requires a1 < |m.vs| && b1 < |m.vs| && a2 < |m.vs| && b2 < |m.vs| && a3 < |m.vs| && b3 < |m.vs|
    requires EdgeKey(a1, b1) in m.edges && EdgeKey(a2, b2) in m.edges && EdgeKey(a3, b3) in m.edges
    ensures r == Mids(m, m.edges[EdgeKey(a1, b1)], m.edges[EdgeKey(a2, b2)], m.edges[EdgeKey(a3, b3)])
  {
    var s1 := Edge(m, a1, b1);
    var s2 := Edge(s1.memo, a2, b2);
    var s3 := Edge(s2.memo, a3, b3);
    r := Mids(s3.memo, s1.index, s2.index, s3.index);
  }

  /** One triangle's four children, with the nine `edge` calls in the order
      the source makes them: three corner triangles, each with the midpoints
      of its corner's two edges, and the middle triangle of the three
      midpoints. At most three vertices are added, and every child indexes
      an existing vertex. */
  method SplitTriangle(m: Memo, t: Tri) returns (r: Split)
    requires Valid(m) && InBounds(t, |m.vs|)
    ensures Valid(r.memo) && Extends(m, r.memo)
    ensures |r.memo.vs| <= |m.vs| + 3
    ensures var e := r.memo.edges;
      var ab, bc, ca := EdgeKey(t.a, t.b), EdgeKey(t.b, t.c), EdgeKey(t.c, t.a);
      && ab in e && bc in e && ca in e
      && r.tris == [Tri(t.a, e[ab], e[ca]), Tri(t.b, e[bc], e[ab]),
                    Tri(t.c, e[ca], e[bc]), Tri(e[ab], e[bc], e[ca])]
    ensures Known(t, r.memo.edges) && r.tris == Children(t, r.memo.edges)
    ensures AllInBounds(r.tris, |r.memo.vs|)
  {
    var first := OpenEdges(m, t);
    EdgeKeySymmetric(t.a, t.b);
    EdgeKeySymmetric(t.b, t.c);
    EdgeKeySymmetric(t.c, t.a);
    var second := Revisit(first.memo, t.b, t.a, t.c, t.a, t.c, t.b);
    var third := Revisit(second.memo, t.a, t.b, t.b, t.c, t.c, t.a);
    var memo := third.memo;
    var t0 := Tri(t.a, first.x, first.y);
    var t1 := Tri(t.b, first.z, second.x);
    var t2 := Tri(t.c, second.y, second.z);
    var t3 := Tri(third.x, third.y, third.z);
    FourInBounds(t0, t1, t2, t3, |memo.vs|);
    r := Split(memo, [t0, t1, t2, t3]);
  }

  lemma InBoundsGrow(ts: seq<Tri>, n: nat, n': nat)
    requires AllInBounds(ts, n) && n <= n'
    ensures AllInBounds(ts, n')
  {
  }

  lemma InBoundsConcat(ts: seq<Tri>, us: seq<Tri>, n: nat)
    requires AllInBounds(ts, n) && AllInBounds(us, n)
    ensures AllInBounds(ts + us, n)
  {
    forall i | 0 <= i < |ts + us|
      ensures InBounds((ts + us)[i], n)
    {
      if i >= |ts| {
        assert (ts + us)[i] == us[i - |ts|];
      }
    }
  }

  /** The midpoint index the edge map records for the edge `a`-`b`, in
      either order (0 when the edge is not recorded). */
  function Mid(e: map<Key, nat>, a: nat, b: nat): nat {
    var k := EdgeKey(a, b);
    if k in e then e[k] else 0
  }

  /** All three edges of `t` are recorded in `e`. */
  predicate Known(t: Tri, e: map<Key, nat>) {
    EdgeKey(t.a, t.b) in e && EdgeKey(t.b, t.c) in e && EdgeKey(t.c, t.a) in e
  }

  predicate AllKnown(ts: seq<Tri>, e: map<Key, nat>) {
    forall i :: 0 <= i < |ts| ==> Known(ts[i], e)
  }

  /** The four children of `t` through the edge map `e`: the three corner
      triangles `[t[0], ab, ca]`, `[t[1], bc, ab]`, `[t[2], ca, bc]` and the
      middle triangle `[ab, bc, ca]`. */
  function Children(t: Tri, e: map<Key, nat>): seq<Tri> {
    var ab, bc, ca := Mid(e, t.a, t.b), Mid(e, t.b, t.c), Mid(e, t.c, t.a);
    [Tri(t.a, ab, ca), Tri(t.b, bc, ab), Tri(t.c, ca, bc), Tri(ab, bc, ca)]
  }

  /** One level as a reference definition: every triangle replaced, in
      order, by its four children. */
  function Refine(ts: seq<Tri>, e: map<Key, nat>): (r: seq<Tri>)
    ensures |r| == 4 * |ts|
  {
    if ts == [] then [] else Refine(ts[..|ts| - 1], e) + Children(ts[|ts| - 1], e)
  }

  /** `n` levels through one edge map. */
  function Levels(ts: seq<Tri>, e: map<Key, nat>, n: nat): seq<Tri> {
    if n == 0 then ts else Refine(Levels(ts, e, n - 1), e)
  }

  /** Every level before the `n`-th has all its edges recorded in `e`. */
  ghost predicate LevelsKnown(ts: seq<Tri>, e: map<Key, nat>, n: nat) {
    n == 0 || (LevelsKnown(ts, e, n - 1) && AllKnown(Levels(ts, e, n - 1), e))
  }

  /** The children of triangle `k` sit at `4k` to `4k + 3` of the refined
      list. */
  lemma {:induction false} RefineAt(ts: seq<Tri>, e: map<Key, nat>, k: nat)
    requires k < |ts|
    ensures Refine(ts, e)[4 * k..4 * k + 4] == Children(ts[k], e)
  {
    var init := ts[..|ts| - 1];
    assert Refine(ts, e) == Refine(init, e) + Children(ts[|ts| - 1], e);
    if k < |ts| - 1 {
      RefineAt(init, e, k);
      assert init[k] == ts[k];
    }
  }

  /** Recording more edges does not change the children of triangles whose
      edges were already recorded. */
  lemma {:induction false} RefineStable(ts: seq<Tri>, e: map<Key, nat>, e': map<Key, nat>)
    requires AllKnown(ts, e) && Grows(e, e')
    ensures AllKnown(ts, e') && Refine(ts, e) == Refine(ts, e')
    decreases |ts|
  {
    if ts != [] {
      var init := ts[..|ts| - 1];
      assert AllKnown(init, e) by {
        forall i | 0 <= i < |init|
          ensures Known(init[i], e)
        {
          assert init[i] == ts[i];
        }
      }
      RefineStable(init, e, e');
      var t := ts[|ts| - 1];
      assert Known(t, e);
      assert Children(t, e) == Children(t, e');
    }
  }

  lemma {:induction false} LevelsStable(ts: seq<Tri>, e: map<Key, nat>, e': map<Key, nat>, n: nat)
    requires LevelsKnown(ts, e, n) && Grows(e, e')
    ensures LevelsKnown(ts, e', n) && Levels(ts, e, n) == Levels(ts, e', n)
  {
    if n > 0 {
      LevelsStable(ts, e, e', n - 1);
      RefineStable(Levels(ts, e, n - 1), e, e');
    }
  }

  /** Splitting triangle `i` through a grown edge map extends the
      refinement of the first `i` triangles by its children. */
  lemma RefineStep(ts: seq<Tri>, i: nat, e: map<Key, nat>, e': map<Key, nat>, tris: seq<Tri>)
    requires i < |ts| && AllKnown(ts[..i], e) && Grows(e, e')
    requires Known(ts[i], e') && tris == Children(ts[i], e')
    ensures AllKnown(ts[..i + 1], e') && Refine(ts[..i], e) + tris == Refine(ts[..i + 1], e')
  {
    RefineStable(ts[..i], e, e');
    var next := ts[..i + 1];
    assert next[..i] == ts[..i];
    forall j | 0 <= j < i + 1
      ensures Known(next[j], e')
    {
      if j < i {
        assert next[j] == ts[..i][j];
      }
    }
  }

  /** One more level through a grown edge map that records the edges of the
      current level. */
  lemma LevelStep(ts: seq<Tri>, e: map<Key, nat>, e': map<Key, nat>, i: nat, cur: seq<Tri>, next: seq<Tri>)
    requires LevelsKnown(ts, e, i) && cur == Levels(ts, e, i) && Grows(e, e')
    requires AllKnown(cur, e') && next == Refine(cur, e')
    ensures LevelsKnown(ts, e', i + 1) && next == Levels(ts, e', i + 1)
  {
    LevelsStable(ts, e, e', i);
  }

  /** One level (`ts.iter().for_each`): every triangle split in turn, all
      sharing one edge map. The result is the reference refinement through
      the final edge map, so the children of triangle `k` are at `4k` to
      `4k + 3`, and every midpoint they use is recorded. */
  method SplitAll(m: Memo, ts: seq<Tri>) returns (r: Split)
    requires Valid(m) && AllInBounds(ts, |m.vs|)
    ensures Valid(r.memo) && Extends(m, r.memo)
    ensures |r.tris| == 4 * |ts|
    ensures AllInBounds(r.tris, |r.memo.vs|)
    ensures |r.memo.vs| <= |m.vs| + 3 * |ts|
    ensures AllKnown(ts, r.memo.edges) && r.tris == Refine(ts, r.memo.edges)
    ensures forall k :: 0 <= k < |ts| ==> r.tris[4 * k..4 * k + 4] == Children(ts[k], r.memo.edges)
  {
    var memo, out := m, [];
    for i := 0 to |ts|
      invariant Valid(memo) && Extends(m, memo)
      invariant |out| == 4 * i && AllInBounds(out, |memo.vs|)
      invariant |memo.vs| <= |m.vs| + 3 * i
      invariant AllKnown(ts[..i], memo.edges) && out == Refine(ts[..i], memo.edges)
    {
      assert InBounds(ts[i], |m.vs|);
      var s := SplitTriangle(memo, ts[i]);
      InBoundsGrow(out, |memo.vs|, |s.memo.vs|);
      InBoundsConcat(out, s.tris, |s.memo.vs|);
      RefineStep(ts, i, memo.edges, s.memo.edges, s.tris);
      ExtendsTransitive(m, memo, s.memo);
      memo, out := s.memo, out + s.tris;
    }
    assert ts[..|ts|] == ts;
    forall k | 0 <= k < |ts|
      ensures out[4 * k..4 * k + 4] == Children(ts[k], memo.edges)
    {
      RefineAt(ts, memo.edges, k);
    }
    r := Split(memo, out);
  }

  /** The counting step of one more level. */
  lemma LevelArithmetic(n: nat, p: nat)
    requires p >= 1
    ensures 4 * (n * p) == n * (4 * p)
    ensures n * p - n == n * (p - 1)
  {
  }

  /** What `i` rounds of splitting from `m` reach: the edge map of `memo`
      records every level before the `i`-th and gives `cur` as `i`
      refinements of `ts`, with `|ts| * 4^i` triangles indexing existing
      vertices, and at most `3c` vertices added per round of `c`
      triangles. */
  ghost predicate Reached(m: Memo, ts: seq<Tri>, i: nat, memo: Memo, cur: seq<Tri>) {
    && Valid(memo) && Extends(m, memo)
    && LevelsKnown(ts, memo.edges, i) && cur == Levels(ts, memo.edges, i)
    && |cur| == |ts| * Pow4(i)
    && AllInBounds(cur, |memo.vs|)
    && |memo.vs| + |ts| <= |m.vs| + |cur|
  }

  /** One round of `SplitAll` on the current level reaches the next. */
  lemma RoundStep(m: Memo, ts: seq<Tri>, i: nat, memo: Memo, cur: seq<Tri>, s: Split)
    requires Reached(m, ts, i, memo, cur)
    requires Valid(s.memo) && Extends(memo, s.memo)
    requires |s.tris| == 4 * |cur| && AllInBounds(s.tris, |s.memo.vs|)
    requires |s.memo.vs| <= |memo.vs| + 3 * |cur|
    requires AllKnown(cur, s.memo.edges) && s.tris == Refine(cur, s.memo.edges)
    ensures Reached(m, ts, i + 1, s.memo, s.tris)
  {
    LevelArithmetic(|ts|, Pow4(i));
    ExtendsTransitive(m, memo, s.memo);
    LevelStep(ts, memo.edges, s.memo.edges, i, cur, s.tris);
  }

  /** `levels` rounds of splitting (`for i in 0..level`), sharing one edge
      map across all rounds: the result is `levels` reference refinements
      through the final edge map, every midpoint recorded; the triangle count
      is multiplied by four per round, and each round adds at most three
      vertices per triangle. */
  method Subdivide(m: Memo, ts: seq<Tri>, levels: nat) returns (r: Split)
    requires Valid(m) && AllInBounds(ts, |m.vs|)
    ensures Valid(r.memo) && Extends(m, r.memo)
    ensures LevelsKnown(ts, r.memo.edges, levels) && r.tris == Levels(ts, r.memo.edges, levels)
    ensures |r.tris| == |ts| * Pow4(levels)
    ensures AllInBounds(r.tris, |r.memo.vs|)
    ensures |r.memo.vs| <= |m.vs| + |ts| * (Pow4(levels) - 1)
  {
    var memo, cur := m, ts;
    for i := 0 to levels
      invariant Reached(m, ts, i, memo, cur)
    {
      var s := SplitAll(memo, cur);
      RoundStep(m, ts, i, memo, cur, s);
      memo, cur := s.memo, s.tris;
    }
    LevelArithmetic(|ts|, Pow4(levels));
    r := Split(memo, cur);
  }

  const BaseMemo: Memo := Memo(BaseVertices(), map[])

  /** Normalisation: each vertex projected onto the sphere of the given
      radius, one for one and in order. */
  function Normalize(vs: seq<Point>, radius: real): (r: seq<SpherePoint>)
    ensures |r| == |vs|
    ensures forall i :: 0 <= i < |vs| ==> r[i].p == vs[i] && r[i].radius == radius
  {
    seq(|vs|, i requires 0 <= i < |vs| => Projected(vs[i], radius))
  }

  /** `i as u32`: truncation to the low 32 bits. */
  function AsU32(i: nat): (r: nat)
    ensures r < U32Limit
    ensures i < U32Limit ==> r == i
    ensures (i - r) % U32Limit == 0
  {
    i % U32Limit
  }

  /** The conversion of every triangle's indices to `u32`, in order. */
  function ToU32(ts: seq<Tri>): (r: seq<Tri>)
    ensures |r| == |ts|
    ensures forall i :: 0 <= i < |ts| ==> InBounds(r[i], U32Limit)
    ensures forall i :: 0 <= i < |ts| && InBounds(ts[i], U32Limit) ==> r[i] == ts[i]
  {
    seq(|ts|, i requires 0 <= i < |ts| => Tri(AsU32(ts[i].a), AsU32(ts[i].b), AsU32(ts[i].c)))
  }

  /** When every index is below a vertex count that fits in `u32`, the
      conversion changes nothing. */
  lemma ToU32Preserves(ts: seq<Tri>, n: nat)
    requires AllInBounds(ts, n) && n <= U32Limit
    ensures ToU32(ts) == ts
  {
  }

  /** A mesh: vertices and triangles indexing them. */
  datatype Mesh = Mesh(verts: seq<SpherePoint>, indices: seq<Tri>)

  /** The symbolic points behind projected vertices. */
  function Points(vs: seq<SpherePoint>): (r: seq<Point>)
    ensures |r| == |vs|
  {
    seq(|vs|, i requires 0 <= i < |vs| => vs[i].p)
  }

  /** `indices` are `level` refinements of the base triangles, as `u32`,
      through an edge map that records every midpoint they use, each
      midpoint being the centre of its edge's endpoints among `verts`. */
  ghost predicate Subdivision(level: nat, verts: seq<SpherePoint>, indices: seq<Tri>) {
    exists e: map<Key, nat> ::
      && Valid(Memo(Points(verts), e))
      && LevelsKnown(BaseTriangles, e, level)
      && indices == ToU32(Levels(BaseTriangles, e, level))
  }

  lemma Pow4Monotone(m: nat, n: nat)
    requires m <= n
    ensures Pow4(m) <= Pow4(n)
    decreases n
  {
    if m < n {
      Pow4Monotone(m, n - 1);
    }
  }

  /** Up to level 13 a vertex count bounded by the subdivision fits in
      `u32`. */
  lemma FitsU32(level: nat, count: nat)
    requires level <= 13 && count <= 20 * Pow4(level) - 8
    ensures count <= U32Limit
  {
    Pow4Monotone(level, 13);
    assert Pow4(13) == 67108864;
  }

  /** The subdivision both versions of `icosphere` share, projected onto a
      sphere of the given radius and with `u32` indices. The first twelve
      vertices are the base corners; up to level 13 every index is an
      existing vertex and the `u32` conversion changed nothing. */
  method Sphere(level: nat, radius: real) returns (r: Mesh)
    ensures |r.indices| == 20 * Pow4(level)
    ensures 12 <= |r.verts| <= 20 * Pow4(level) - 8
    ensures forall i :: 0 <= i < |r.indices| ==> InBounds(r.indices[i], U32Limit)
    ensures forall i :: 0 <= i < 12 ==> r.verts[i] == Projected(Corner(i), radius)
    ensures forall i :: 0 <= i < |r.verts| ==> r.verts[i].radius == radius
    ensures level <= 13 ==> AllInBounds(r.indices, |r.verts|)
    ensures Subdivision(level, r.verts, r.indices)
  {
    BaseMesh();
    var s := Subdivide(BaseMemo, BaseTriangles, level);
    assert s.memo.vs[..12] == BaseVertices();
    var verts := Normalize(s.memo.vs, radius);
    forall i | 0 <= i < 12
      ensures verts[i] == Projected(Corner(i), radius)
    {
      assert s.memo.vs[i] == s.memo.vs[..12][i];
    }
    if level <= 13 {
      FitsU32(level, |s.memo.vs|);
      ToU32Preserves(s.tris, |s.memo.vs|);
    }
    assert Points(verts) == s.memo.vs;
    assert Valid(Memo(Points(verts), s.memo.edges));
    r := Mesh(verts, ToU32(s.tris));
  }

  /** `icosphere(level)` of src/draw/icosphere.rs: unit radius. */
  method Build(level: U8) returns (r: Mesh)
    ensures |r.indices| == 20 * Pow4(level)
    ensures 12 <= |r.verts| <= 20 * Pow4(level) - 8
    ensures forall i :: 0 <= i < |r.indices| ==> InBounds(r.indices[i], U32Limit)
    ensures forall i :: 0 <= i < 12 ==> r.verts[i] == Projected(Corner(i), 1.0)
    ensures forall i :: 0 <= i < |r.verts| ==> r.verts[i].radius == 1.0
    ensures level <= 13 ==> AllInBounds(r.indices, |r.verts|)
    ensures Subdivision(level, r.verts, r.indices)
  {
    r := Sphere(level, 1.0);
  }
}

=== FILE: legacy_draw.dfy ===
/**
 * The older drawing module (src/draw.rs): its own copy of the icosphere,
 * which projects onto a sphere of radius one half, the conversion of meshes
 * into vertex and index buffers, and `State::new`, which builds a level-2
 * icosphere and uploads it as a triangle list.
 *
 * Buffers are the data handed to the GPU; creating them, compiling the
 * shaders and drawing are not modelled.
 */
module LegacyDraw {
  import Icosphere

  type Tri = Icosphere.Tri

  /** `struct Vertex { position }`, generic in the position type. */
  datatype Vertex<V> = Vertex(position: V)

  /** The primitive types the buffers can be tagged with. */
  datatype PrimitiveType = Points | LinesList | LineStrip | TrianglesList | TriangleStrip | TriangleFan

  datatype VertexBuffer<V> = VertexBuffer(vertices: seq<Vertex<V>>)

  /** An index buffer: the primitive type and the flat `u32` indices. */
  datatype IndexBuffer = IndexBuffer(primitive: PrimitiveType, data: seq<nat>)

  /** `NoIndices(p)`: draw the vertices in order as primitives of type `p`. */
  datatype NoIndices = NoIndices(primitive: PrimitiveType)

  datatype TriangleMesh<V> = TriangleMesh(verts: seq<V>)

  datatype IndexedMesh<V> = IndexedMesh(verts: seq<V>, indices: seq<Tri>)

  /** The `map(|q| Vertex { position: [q.x, q.y, q.z] })` shared by both
      conversions: one vertex per position, in order. */
  function Vertices<V>(verts: seq<V>): (r: seq<Vertex<V>>)
    ensures |r| == |verts|
    ensures forall i :: 0 <= i < |verts| ==> r[i].position == verts[i]
  {
    seq(|verts|, i requires 0 <= i < |verts| => Vertex(verts[i]))
  }

  /** The positions of a vertex list. */
  function Positions<V>(vs: seq<Vertex<V>>): (r: seq<V>)
    ensures |r| == |vs|
    ensures forall i :: 0 <= i < |vs| ==> r[i] == vs[i].position
  {
    seq(|vs|, i requires 0 <= i < |vs| => vs[i].position)
  }

  /** Building vertices and reading their positions back are inverse. */
  lemma VerticesRoundTrip<V>(verts: seq<V>, vs: seq<Vertex<V>>)
    ensures Positions(Vertices(verts)) == verts
    ensures Vertices(Positions(vs)) == vs
  {
    assert Positions(Vertices(verts)) == verts;
    assert forall i :: 0 <= i < |vs| ==> Vertices(Positions(vs))[i] == Vertex(vs[i].position);
  }

  /** `TriangleMesh::vbo`: every position becomes a vertex, and the vertices
      are drawn unindexed as primitives of type `p`. */
  function Vbo<V>(mesh: TriangleMesh<V>, p: PrimitiveType): (r: (VertexBuffer<V>, NoIndices))
    ensures Positions(r.0.vertices) == mesh.verts
    ensures r.1.primitive == p
  {
    VerticesRoundTrip(mesh.verts, []);
    (VertexBuffer(Vertices(mesh.verts)), NoIndices(p))
  }

  /** The index loop of `IndexedMesh::buffers`: `x`, `y`, `z` of each
      triangle pushed in turn. */
  function Flatten(ts: seq<Tri>): (r: seq<nat>)
    ensures |r| == 3 * |ts|
  {
    if ts == [] then [] else [ts[0].a, ts[0].b, ts[0].c] + Flatten(ts[1..])
  }

  /** Entries `3k`, `3k + 1`, `3k + 2` of the flat list are the indices of
      triangle `k`. */
  lemma {:induction false} FlattenIndex(ts: seq<Tri>, k: nat)
    requires k < |ts|
    ensures var r := Flatten(ts);
      r[3 * k] == ts[k].a && r[3 * k + 1] == ts[k].b && r[3 * k + 2] == ts[k].c
  {
    if k > 0 {
      FlattenIndex(ts[1..], k - 1);
      var r := Flatten(ts);
      var rest := Flatten(ts[1..]);
      assert r == [ts[0].a, ts[0].b, ts[0].c] + rest;
      assert r[3 * k] == rest[3 * (k - 1)];
      assert r[3 * k + 1] == rest[3 * (k - 1) + 1];
      assert r[3 * k + 2] == rest[3 * (k - 1) + 2];
    }
  }

  lemma WholeTriangles(n: nat)
    ensures (3 * n) % 3 == 0
  {
  }

  /** Flat indices read back three at a time. */
  function Unflatten(r: seq<nat>): (ts: seq<Tri>)
    requires |r| % 3 == 0
    ensures 3 * |ts| == |r|
    decreases |r|
  {
    if r == [] then [] else [Icosphere.Tri(r[0], r[1], r[2])] + Unflatten(r[3..])
  }

  /** Reading the flat indices back three at a time recovers the
      triangles. */
  lemma {:induction false} UnflattenFlatten(ts: seq<Tri>)
    ensures Unflatten(Flatten(ts)) == ts
  {
    if ts != [] {
      var r := Flatten(ts);
      assert r[3..] == Flatten(ts[1..]);
      UnflattenFlatten(ts[1..]);
      assert ts == [ts[0]] + ts[1..];
    }
  }

  /** Every flat list of whole triangles is the flattening of its
      triangles. */
  lemma {:induction false} FlattenUnflatten(r: seq<nat>)
    requires |r| % 3 == 0
    ensures Flatten(Unflatten(r)) == r
    decreases |r|
  {
    if r != [] {
      FlattenUnflatten(r[3..]);
      var ts := Unflatten(r);
      assert ts[1..] == Unflatten(r[3..]);
      assert Flatten(ts) == [r[0], r[1], r[2]] + Flatten(ts[1..]);
      assert r == [r[0], r[1], r[2]] + r[3..];
    }
  }

  /** Triangles that index only existing vertices flatten to indices that
      do. */
  lemma FlattenInBounds(ts: seq<Tri>, n: nat)
    ensures Icosphere.AllInBounds(ts, n) ==>
      forall i :: 0 <= i < |Flatten(ts)| ==> Flatten(ts)[i] < n
  {
    var r := Flatten(ts);
    if Icosphere.AllInBounds(ts, n) {
      forall i | 0 <= i < |r|
        ensures r[i] < n
      {
        var k := i / 3;
        FlattenIndex(ts, k);
        assert Icosphere.InBounds(ts[k], n);
        assert i == 3 * k || i == 3 * k + 1 || i == 3 * k + 2;
      }
    }
  }

  /** `IndexedMesh::buffers`: one vertex per position, and an index buffer of
      type `p` holding the triangles' indices three by three, which read back
      as the triangles. */
  function Buffers<V>(mesh: IndexedMesh<V>, p: PrimitiveType): (r: (VertexBuffer<V>, IndexBuffer))
    ensures Positions(r.0.vertices) == mesh.verts
    ensures r.1.primitive == p
    ensures |r.1.data| == 3 * |mesh.indices| && Unflatten(r.1.data) == mesh.indices
    ensures Icosphere.AllInBounds(mesh.indices, |mesh.verts|) ==>
      forall i :: 0 <= i < |r.1.data| ==> r.1.data[i] < |r.0.vertices|
  {
    VerticesRoundTrip(mesh.verts, []);
    UnflattenFlatten(mesh.indices);
    FlattenInBounds(mesh.indices, |mesh.verts|);
    (VertexBuffer(Vertices(mesh.verts)), IndexBuffer(p, Flatten(mesh.indices)))
  }

  /** `icosphere` of src/draw.rs: the shared subdivision, each vertex divided
      by twice its norm, so on the sphere of radius one half. */
  method OldIcosphere(level: Icosphere.U8) returns (r: IndexedMesh<Icosphere.SpherePoint>)
    ensures |r.indices| == 20 * Icosphere.Pow4(level)
    ensures 12 <= |r.verts| <= 20 * Icosphere.Pow4(level) - 8
    ensures forall i :: 0 <= i < 12 ==> r.verts[i] == Icosphere.Projected(Icosphere.Corner(i), 0.5)
    ensures forall i :: 0 <= i < |r.verts| ==> r.verts[i].radius == 0.5
    ensures level <= 13 ==> Icosphere.AllInBounds(r.indices, |r.verts|)
    ensures Icosphere.Subdivision(level, r.verts, r.indices)
  {
    var mesh := Icosphere.Sphere(level, 0.5);
    r := IndexedMesh(mesh.verts, mesh.indices);
  }

  /** The buffers `State::new` keeps; the shader program is not modelled. */
  datatype State = State(vbo: VertexBuffer<Icosphere.SpherePoint>, indices: IndexBuffer)

  /** Uploading a mesh as a triangle list keeps what it subdivides: its
      vertices, on the sphere of radius one half, and its triangles read back
      from the buffers, every index naming an uploaded vertex. */
  lemma Uploaded(level: nat, mesh: IndexedMesh<Icosphere.SpherePoint>, s: State)
    requires forall i :: 0 <= i < |mesh.verts| ==> mesh.verts[i].radius == 0.5
    requires Icosphere.AllInBounds(mesh.indices, |mesh.verts|)
    requires Icosphere.Subdivision(level, mesh.verts, mesh.indices)
    requires s == State(Buffers(mesh, TrianglesList).0, Buffers(mesh, TrianglesList).1)
    ensures s.indices.primitive == TrianglesList
    ensures |s.indices.data| == 3 * |mesh.indices| && |s.vbo.vertices| == |mesh.verts|
    ensures |s.indices.data| % 3 == 0 && Unflatten(s.indices.data) == mesh.indices
    ensures forall i :: 0 <= i < |s.indices.data| ==> s.indices.data[i] < |s.vbo.vertices|
    ensures forall i :: 0 <= i < |s.vbo.vertices| ==> s.vbo.vertices[i].position.radius == 0.5
    ensures Icosphere.Subdivision(level, Positions(s.vbo.vertices), Unflatten(s.indices.data))
  {
    var b := Buffers(mesh, TrianglesList);
    WholeTriangles(|mesh.indices|);
    assert s.vbo == b.0 && s.indices == b.1;
    assert Positions(s.vbo.vertices) == mesh.verts;
    forall i | 0 <= i < |s.vbo.vertices|
      ensures s.vbo.vertices[i].position.radius == 0.5
    {
      assert s.vbo.vertices[i].position == Positions(s.vbo.vertices)[i];
    }
  }

  /** The subdivision level `State::new` asks for. */
  const StateLevel: Icosphere.U8 := 2

  /** `State::new`: a level-2 icosphere, 320 triangles, uploaded as a
      triangle list of 960 indices, every one naming an uploaded vertex. */
  method NewState() returns (s: State)
    ensures s.indices.primitive == TrianglesList
    ensures |s.indices.data| == 960 && |Unflatten(s.indices.data)| == 320
    ensures 12 <= |s.vbo.vertices| <= 312
    ensures forall i :: 0 <= i < |s.indices.data| ==> s.indices.data[i] < |s.vbo.vertices|
    ensures forall i :: 0 <= i < |s.vbo.vertices| ==> s.vbo.vertices[i].position.radius == 0.5
    ensures Icosphere.Subdivision(StateLevel, Positions(s.vbo.vertices), Unflatten(s.indices.data))
  {
    var ico := OldIcosphere(StateLevel);
    assert Icosphere.Pow4(StateLevel) == 16;
    var buffers := Buffers(ico, TrianglesList);
    s := State(buffers.0, buffers.1);
    Uploaded(StateLevel, ico, s);
  }
}

=== FILE: live.dfy ===
/**
 * The module side of the live-reload protocol (src/live.rs).
 *
 * Every loaded copy of the module has its own process-wide `STATE` static, an
 * `Option` holding the scene that `init` builds. The three exported entry
 * points fill it (`init`), read it (`draw`) and empty it (`deinit`).
 */
module Live {
  import opened Wrappers

  /** The scene (`draw::draw::State`) that `init` builds for a display. Its
      contents (planet, ocean, GPU programs) are rendering detail; only the
      display it was built for is kept. */
  datatype Scene = Scene(display: nat)

  /** The `STATE` static of one loaded copy of the module. */
  datatype Slot = Slot(state: Option<Scene>)

  /** The static initialiser: a freshly loaded copy starts with `STATE = None`. */
  const Fresh: Slot := Slot(None)

  /** What the exported `draw` did: rendered the scene with the given counter,
      or panicked on the `unwrap` of an empty slot. */
  datatype Drawn = Rendered(slot: Slot, scene: Scene, counter: int) | Panicked

  /** `init`: builds a scene for the display and stores it, replacing whatever
      the slot held. */
  function Init(s: Slot, display: nat): (r: Slot)
    ensures r.state.Some? && r.state.value.display == display
  {
    Slot(Some(Scene(display)))
  }

  /** `draw`: reads the slot through `as_ref`, so it never changes it, and
      panics when it is empty. */
  function Draw(s: Slot, counter: int): (r: Drawn)
    ensures r.Rendered? <==> s.state.Some?
    ensures r.Rendered? ==> r.slot == s && s.state == Some(r.scene) && r.counter == counter
  {
    match s.state
    case None => Panicked
    case Some(scene) => Rendered(s, scene, counter)
  }

  /** `deinit`: `take` empties the slot and drops the scene; on an empty slot
      it does nothing. */
  function Deinit(s: Slot): (r: Slot)
    ensures r.state.None?
    ensures s.state.None? ==> r == s
  {
    Slot(None)
  }

  /** Repeated `deinit` is harmless, and after it `draw` panics. */
  lemma DeinitIdempotent(s: Slot, counter: int)
    ensures Deinit(Deinit(s)) == Deinit(s)
    ensures Draw(Deinit(s), counter) == Panicked
  {
  }

  /** After `init`, `draw` renders the scene built for that display and leaves
      the slot as `init` left it. */
  lemma DrawAfterInit(s: Slot, display: nat, counter: int)
    ensures Draw(Init(s, display), counter) == Rendered(Init(s, display), Scene(display), counter)
  {
  }
}

=== FILE: session.dfy ===
/**
 * The protocol between host and module, across src/handle.rs and
 * src/live.rs: a handle created by `Handle::new` and then driven by any
 * sequence of `reload` and `draw` calls never dispatches a `draw` to a module
 * whose `STATE` is empty.
 *
 * Two views are proved. On the handle, the invariant `Host.Coherent` holds
 * after every call, so the module-side `unwrap` never panics. On the trace,
 * replaying the host's effects through the module's own state machine
 * (`Live.Init`, `Live.Draw`, `Live.Deinit`, one slot per file the host has
 * tried to load) never reaches a `draw` on an empty slot, nor a call into a
 * file the host never tried to load.
 */
module Session {
  import opened Wrappers
  import Live
  import opened Host

  /** One call the render loop makes on its handle. */
  datatype Command = ReloadCmd(env: Env) | DrawCmd(counter: I32, finishOk: bool)

  function Perform(h: Handle, display: nat, c: Command): Run {
    match c
    case ReloadCmd(env) => Reload(h, display, env)
    case DrawCmd(counter, finishOk) => Draw(h, counter, finishOk)
  }

  /** Runs the commands in order, stopping at the first panic. */
  function Play(h: Handle, display: nat, cmds: seq<Command>): Run
    decreases |cmds|
  {
    if cmds == [] then Ok(h, [])
    else
      match Perform(h, display, cmds[0])
      case Crash(t, p) => Crash(t, p)
      case Ok(h1, t1) =>
        match Play(h1, display, cmds[1..])
        case Crash(t2, p) => Crash(t1 + t2, p)
        case Ok(h2, t2) => Ok(h2, t1 + t2)
  }

  /** `Handle::new` followed by the commands. */
  function Session(target: string, display: nat, env: Env, cmds: seq<Command>): Run {
    match New(target, display, env)
    case Crash(t, p) => Crash(t, p)
    case Ok(h, t1) =>
      match Play(h, display, cmds)
      case Crash(t2, p) => Crash(t1 + t2, p)
      case Ok(h2, t2) => Ok(h2, t1 + t2)
  }

  /** Every call keeps the invariant, so no call panics on an empty `STATE`. */
  lemma {:induction false} PlayKeepsCoherent(h: Handle, display: nat, cmds: seq<Command>)
    requires Coherent(h)
    ensures Play(h, display, cmds).Ok? ==> Coherent(Play(h, display, cmds).handle)
    ensures Play(h, display, cmds).Crash? ==> Play(h, display, cmds).panic != StateUnset
    decreases |cmds|
  {
    if cmds != [] {
      var r := Perform(h, display, cmds[0]);
      if r.Ok? {
        PlayKeepsCoherent(r.handle, display, cmds[1..]);
      }
    }
  }

  /** Whatever the world answers, a session never panics in the module's
      `draw`. */
  lemma SessionNeverDrawsUnset(target: string, display: nat, env: Env, cmds: seq<Command>)
    ensures Session(target, display, env, cmds).Crash? ==>
      Session(target, display, env, cmds).panic != StateUnset
  {
    var r := New(target, display, env);
    if r.Ok? {
      PlayKeepsCoherent(r.handle, display, cmds);
    }
  }

  /** The module's view of the process: the `STATE` slot of every file the host
      has tried to load so far. */
  type Images = map<string, Live.Slot>

  /** One effect, seen from the module side. `None` when the host calls into
      a file it never tried to load, or dispatches a `draw` that finds `STATE`
      empty. File operations, frame finishing and unloading touch no slot (a
      reload within the same second stages to the same name, and the loader
      keeps an image mapped while it is referenced). */
  function Apply(images: Images, e: Event): Option<Images> {
    match e
    case Load(f) => Some(images[f := Live.Fresh])
    case CallInit(f, d) =>
      if f in images then Some(images[f := Live.Init(images[f], d)]) else None
    case CallDeinit(f) =>
      if f in images then Some(images[f := Live.Deinit(images[f])]) else None
    case CallDraw(f, c) =>
      if f in images && Live.Draw(images[f], c).Rendered? then Some(images) else None
    case _ => Some(images)
  }

  /** Replays a trace on the module side, stopping at the first violation. */
  function Replay(images: Images, t: seq<Event>): Option<Images>
    decreases |t|
  {
    if t == [] then Some(images)
    else
      match Apply(images, t[0])
      case None => None
      case Some(images') => Replay(images', t[1..])
  }

  /** Effects that touch no module slot. */
  predicate Passive(e: Event) {
    e.RemoveFile? || e.CopyFile? || e.SetInstallName? || e.Unload? || e.FinishFrame?
  }

  lemma {:induction false} ReplayAppend(images: Images, t1: seq<Event>, t2: seq<Event>)
    ensures Replay(images, t1 + t2) ==
      match Replay(images, t1)
      case None => None
      case Some(images') => Replay(images', t2)
    decreases |t1|
  {
    if t1 == [] {
      assert t1 + t2 == t2;
    } else {
      assert (t1 + t2)[0] == t1[0];
      assert (t1 + t2)[1..] == t1[1..] + t2;
      var next := Apply(images, t1[0]);
      if next.Some? {
        ReplayAppend(next.value, t1[1..], t2);
      }
    }
  }

  lemma ReplayOne(images: Images, e: Event)
    ensures Replay(images, [e]) == Apply(images, e)
  {
    assert [e][1..] == [];
  }

  lemma {:induction false} ReplayPassive(images: Images, t: seq<Event>)
    requires forall i :: 0 <= i < |t| ==> Passive(t[i])
    ensures Replay(images, t) == Some(images)
    decreases |t|
  {
    if t != [] {
      ReplayPassive(images, t[1..]);
    }
  }

  /** The handle and the module's view agree: the held library is a loaded
      file whose slot is the one the handle records. */
  ghost predicate Agrees(h: Handle, images: Images) {
    h.lib.Some? ==> h.lib.value.file in images && images[h.lib.value.file] == h.lib.value.slot
  }

  /** Replaying `deinit` and the file operations that precede the load. */
  lemma ReplayTeardown(h: Handle, images: Images, rest: seq<Event>)
    requires Agrees(h, images)
    requires h.lib.Some? ==> DeinitEntry in h.lib.value.exports
    requires forall i :: 0 <= i < |rest| ==> Passive(rest[i])
    ensures var d := if h.lib.Some? then [CallDeinit(h.lib.value.file)] else [];
      var rm := if h.path.Some? then [RemoveFile(h.path.value)] else [];
      var im := if h.lib.Some? then images[h.lib.value.file := Live.Slot(None)] else images;
      Replay(images, d + rm + rest) == Some(im)
  {
    var d := if h.lib.Some? then [CallDeinit(h.lib.value.file)] else [];
    var rm := if h.path.Some? then [RemoveFile(h.path.value)] else [];
    var im := if h.lib.Some? then images[h.lib.value.file := Live.Slot(None)] else images;
    if h.lib.Some? {
      ReplayOne(images, CallDeinit(h.lib.value.file));
    }
    assert Replay(images, d) == Some(im);
    assert d + rm + rest == d + (rm + rest);
    ReplayPassive(im, rm + rest);
    ReplayAppend(images, d, rm + rest);
  }

  /** The trace of a `reload` that panics before loading: the teardown and
      some of the file operations. */
  lemma ReloadEarlyCrashTrace(h: Handle, display: nat, env: Env)
    requires h.lib.Some? ==> DeinitEntry in h.lib.value.exports
    requires env.clock < 0 || !env.copyOk || !env.installNameOk
    ensures exists rest: seq<Event> ::
      && (forall i :: 0 <= i < |rest| ==> Passive(rest[i]))
      && Reload(h, display, env).trace ==
         (if h.lib.Some? then [CallDeinit(h.lib.value.file)] else [])
         + (if h.path.Some? then [RemoveFile(h.path.value)] else [])
         + rest
  {
    var d := if h.lib.Some? then [CallDeinit(h.lib.value.file)] else [];
    var rm := if h.path.Some? then [RemoveFile(h.path.value)] else [];
    if env.clock < 0 {
      ClockCrashTrace(h, display, env);
      assert d + rm == d + rm + [];
    } else if !env.copyOk {
      CopyCrashTrace(h, display, env);
    } else {
      InstallNameCrashTrace(h, display, env);
    }
  }

  lemma ClockCrashTrace(h: Handle, display: nat, env: Env)
    requires h.lib.Some? ==> DeinitEntry in h.lib.value.exports
    requires env.clock < 0
    ensures Reload(h, display, env).trace ==
      (if h.lib.Some? then [CallDeinit(h.lib.value.file)] else [])
      + (if h.path.Some? then [RemoveFile(h.path.value)] else [])
  {
  }

  lemma CopyCrashTrace(h: Handle, display: nat, env: Env)
    requires h.lib.Some? ==> DeinitEntry in h.lib.value.exports
    requires env.clock >= 0 && !env.copyOk
    ensures Reload(h, display, env).trace ==
      (if h.lib.Some? then [CallDeinit(h.lib.value.file)] else [])
      + (if h.path.Some? then [RemoveFile(h.path.value)] else [])
      + [CopyFile(h.target, StagedPath(h.target, env.clock))]
  {
  }

  lemma InstallNameCrashTrace(h: Handle, display: nat, env: Env)
    requires h.lib.Some? ==> DeinitEntry in h.lib.value.exports
    requires env.clock >= 0 && env.copyOk && !env.installNameOk
    ensures var staged := StagedPath(h.target, env.clock);
      Reload(h, display, env).trace ==
      (if h.lib.Some? then [CallDeinit(h.lib.value.file)] else [])
      + (if h.path.Some? then [RemoveFile(h.path.value)] else [])
      + [CopyFile(h.target, staged), SetInstallName(staged)]
  {
  }

  /** The effects of a `reload` up to and including the release of the old
      library. */
  function LoadedPrefix(h: Handle, staged: string): seq<Event> {
    (if h.lib.Some? then [CallDeinit(h.lib.value.file)] else [])
    + (if h.path.Some? then [RemoveFile(h.path.value)] else [])
    + [CopyFile(h.target, staged), SetInstallName(staged)]
    + [Load(staged)]
    + (if h.lib.Some? then [Unload(h.lib.value.file)] else [])
  }

  /** The trace of a `reload` that gets as far as loading. */
  lemma ReloadLateTrace(h: Handle, display: nat, env: Env)
    requires h.lib.Some? ==> DeinitEntry in h.lib.value.exports
    requires env.clock >= 0 && env.copyOk && env.installNameOk
    ensures var staged := StagedPath(h.target, env.clock);
      Reload(h, display, env).trace ==
        LoadedPrefix(h, staged) + (if env.load.Some? && InitEntry in env.load.value then [CallInit(staged, display)] else [])
  {
  }

  /** Replaying up to the release of the old library: the old slot is
      cleared and the new copy has a fresh one. */
  lemma ReplayLoaded(h: Handle, staged: string, images: Images)
    requires Agrees(h, images)
    requires h.lib.Some? ==> DeinitEntry in h.lib.value.exports
    ensures var im := if h.lib.Some? then images[h.lib.value.file := Live.Slot(None)] else images;
      Replay(images, LoadedPrefix(h, staged)) == Some(im[staged := Live.Fresh])
  {
    var d := if h.lib.Some? then [CallDeinit(h.lib.value.file)] else [];
    var rm := if h.path.Some? then [RemoveFile(h.path.value)] else [];
    var im := if h.lib.Some? then images[h.lib.value.file := Live.Slot(None)] else images;
    var u := if h.lib.Some? then [Unload(h.lib.value.file)] else [];
    var pre := d + rm + [CopyFile(h.target, staged), SetInstallName(staged)];
    ReplayTeardown(h, images, [CopyFile(h.target, staged), SetInstallName(staged)]);
    var im2 := im[staged := Live.Fresh];
    ReplayOne(im, Load(staged));
    ReplayPassive(im2, u);
    ReplayAppend(im, [Load(staged)], u);
    ReplayAppend(images, pre, [Load(staged)] + u);
    assert pre + ([Load(staged)] + u) == LoadedPrefix(h, staged);
  }

  /** A `reload` that gets as far as loading replays, and leaves the handle
      agreeing with the module's view. */
  lemma ReloadLateReplays(h: Handle, display: nat, env: Env, images: Images)
    requires Agrees(h, images)
    requires h.lib.Some? ==> DeinitEntry in h.lib.value.exports
    requires env.clock >= 0 && env.copyOk && env.installNameOk
    ensures var r := Reload(h, display, env);
      && Replay(images, r.trace).Some?
      && (r.Ok? ==> Agrees(r.handle, Replay(images, r.trace).value))
  {
    var r := Reload(h, display, env);
    var staged := StagedPath(h.target, env.clock);
    var loaded := LoadedPrefix(h, staged);
    var im := if h.lib.Some? then images[h.lib.value.file := Live.Slot(None)] else images;
    var im2 := im[staged := Live.Fresh];
    ReplayLoaded(h, staged, images);
    ReloadLateTrace(h, display, env);
    if env.load.Some? && InitEntry in env.load.value {
      assert r.trace == loaded + [CallInit(staged, display)];
      ReplayOne(im2, CallInit(staged, display));
      ReplayAppend(images, loaded, [CallInit(staged, display)]);
    } else {
      assert r.trace == loaded + [];
      assert loaded + [] == loaded;
    }
  }

  /** Every `reload` replays on the module side, and one that returns leaves
      the handle agreeing with the module's view. */
  lemma ReloadReplays(h: Handle, display: nat, env: Env, images: Images)
    requires Agrees(h, images)
    ensures var r := Reload(h, display, env);
      && Replay(images, r.trace).Some?
      && (r.Ok? ==> Agrees(r.handle, Replay(images, r.trace).value))
  {
    var r := Reload(h, display, env);
    var d := if h.lib.Some? then [CallDeinit(h.lib.value.file)] else [];
    var rm := if h.path.Some? then [RemoveFile(h.path.value)] else [];
    if h.lib.Some? && DeinitEntry !in h.lib.value.exports {
      assert r.trace == [];
    } else if env.clock < 0 || !env.copyOk || !env.installNameOk {
      ReloadEarlyCrashTrace(h, display, env);
      var rest :| (forall i :: 0 <= i < |rest| ==> Passive(rest[i])) && r.trace == d + rm + rest;
      ReplayTeardown(h, images, rest);
    } else {
      ReloadLateReplays(h, display, env, images);
    }
  }

  lemma DrawReplays(h: Handle, counter: I32, finishOk: bool, images: Images)
    requires Agrees(h, images) && Coherent(h)
    ensures Replay(images, Draw(h, counter, finishOk).trace) == Some(images)
  {
    var r := Draw(h, counter, finishOk);
    if h.lib.Some? && DrawEntry in h.lib.value.exports {
      var e := CallDraw(h.lib.value.file, counter);
      assert r.trace == [e] + [FinishFrame];
      ReplayOne(images, e);
      ReplayOne(images, FinishFrame);
      ReplayAppend(images, [e], [FinishFrame]);
    } else if h.lib.None? {
      ReplayOne(images, FinishFrame);
    }
  }

  lemma {:induction false} PlayReplays(h: Handle, display: nat, cmds: seq<Command>, images: Images)
    requires Agrees(h, images) && Coherent(h)
    ensures var r := Play(h, display, cmds);
      && Replay(images, r.trace).Some?
      && (r.Ok? ==> Agrees(r.handle, Replay(images, r.trace).value) && Coherent(r.handle))
    decreases |cmds|
  {
    if cmds != [] {
      var r1 := Perform(h, display, cmds[0]);
      match cmds[0] {
        case ReloadCmd(env) => ReloadReplays(h, display, env, images);
        case DrawCmd(counter, finishOk) => DrawReplays(h, counter, finishOk, images);
      }
      if r1.Ok? {
        var images1 := Replay(images, r1.trace).value;
        PlayReplays(r1.handle, display, cmds[1..], images1);
        ReplayAppend(images, r1.trace, Play(r1.handle, display, cmds[1..]).trace);
      }
    }
  }

  /** Every effect a session produces, replayed through the module's own
      state machine, is a call into a file the host tried to load, and every
      `draw` the host dispatches finds that file's `STATE` set. */
  lemma SessionReplays(target: string, display: nat, env: Env, cmds: seq<Command>)
    ensures Replay(map[], Session(target, display, env, cmds).trace).Some?
  {
    var h0 := Handle(target, None, None);
    ReloadReplays(h0, display, env, map[]);
    var r := New(target, display, env);
    if r.Ok? {
      var images := Replay(map[], r.trace).value;
      PlayReplays(r.handle, display, cmds, images);
      ReplayAppend(map[], r.trace, Play(r.handle, display, cmds).trace);
    }
  }
}

=== FILE: util.dfy ===
/**
 * Piecewise-linear interpolation (src/draw/util.rs), over the reals.
 *
 * `Interpolator::at` scans the consecutive pairs of control points for the
 * first segment whose x-range holds the input and interpolates on it; with no
 * such segment it returns 0. An empty point list panics on `len() - 1`, and a
 * zero-width segment that holds the input divides zero by zero.
 */
module Util {

  /** A control point `[x, y]`. */
  datatype Knot = Knot(x: real, y: real)

  datatype Interpolator = Interpolator(pts: seq<Knot>)

  /** The outcome of `at`: a number, the NaN of `0.0 / 0.0`, or a panic. */
  datatype Sample = Value(y: real) | NaN | Panic

  /** Segment `i` (points `i` and `i + 1`) holds the input. */
  predicate Hit(pts: seq<Knot>, input: real, i: nat)
    requires i + 1 < |pts|
  {
    pts[i].x <= input <= pts[i + 1].x
  }

  /** No segment from `lo` up to (not including) `hi` holds the input. */
  predicate NoHit(pts: seq<Knot>, input: real, lo: nat, hi: nat)
    requires hi < |pts|
  {
    forall j :: lo <= j < hi ==> !Hit(pts, input, j)
  }

  /** Segment `i` is the first that holds the input. */
  predicate FirstHit(pts: seq<Knot>, input: real, i: nat)
    requires i + 1 < |pts|
  {
    Hit(pts, input, i) && NoHit(pts, input, 0, i)
  }

  /** Linear interpolation on the segment from `p` to `q`. */
  function Lerp(p: Knot, q: Knot, input: real): (r: Sample)
    ensures r.Value? || r.NaN?
    ensures r.NaN? <==> q.x == p.x
  {
    var dx := q.x - p.x;
    if dx == 0.0 then NaN
    else Value((input - p.x) / dx * (q.y - p.y) + p.y)
  }

  /** The scan from segment `i` on. */
  function Scan(pts: seq<Knot>, input: real, i: nat): (r: Sample)
    requires 1 <= |pts| && i < |pts|
    ensures !r.Panic?
    ensures NoHit(pts, input, i, |pts| - 1) ==> r == Value(0.0)
    ensures forall j :: i <= j < |pts| - 1 && Hit(pts, input, j) && NoHit(pts, input, i, j) ==>
      r == Lerp(pts[j], pts[j + 1], input)
    decreases |pts| - i
  {
    if i == |pts| - 1 then Value(0.0)
    else if Hit(pts, input, i) then Lerp(pts[i], pts[i + 1], input)
    else Scan(pts, input, i + 1)
  }

  /** `Interpolator::at` as a reference definition. */
  function Interpolate(pts: seq<Knot>, input: real): (r: Sample)
    ensures r.Panic? <==> |pts| == 0
    ensures |pts| >= 1 && NoHit(pts, input, 0, |pts| - 1) ==> r == Value(0.0)
    ensures forall i :: 0 <= i && i + 1 < |pts| && FirstHit(pts, input, i) ==> r == Lerp(pts[i], pts[i + 1], input)
  {
    if |pts| == 0 then Panic else Scan(pts, input, 0)
  }

  /** `Interpolator::at`, the loop as written: the first segment that holds
      the input decides the result, and with none the result is 0. */
  method At(self: Interpolator, input: real) returns (r: Sample)
    ensures r == Interpolate(self.pts, input)
    ensures r.Panic? <==> |self.pts| == 0
  {
    var pts := self.pts;
    if |pts| == 0 {
      return Panic;
    }
    for i := 0 to |pts| - 1
      invariant NoHit(pts, input, 0, i)
    {
      if pts[i].x <= input && input <= pts[i + 1].x {
        return Lerp(pts[i], pts[i + 1], input);
      }
    }
    return Value(0.0);
  }

  /** The x-values strictly increase. */
  predicate Increasing(pts: seq<Knot>) {
    forall i :: 0 <= i < |pts| - 1 ==> pts[i].x < pts[i + 1].x
  }

  lemma {:induction false} IncreasingFar(pts: seq<Knot>, i: nat, j: nat)
    requires Increasing(pts) && i < j < |pts|
    ensures pts[i].x < pts[j].x
    decreases j - i
  {
    if i + 1 < j {
      IncreasingFar(pts, i + 1, j);
    }
  }

  /** On increasing points, an input inside segment `i`, and not at its left
      end unless that is the first point, is held by no earlier segment. */
  lemma FirstHitInside(pts: seq<Knot>, input: real, i: nat)
    requires Increasing(pts) && i + 1 < |pts|
    requires pts[i].x <= input <= pts[i + 1].x
    requires i > 0 ==> pts[i].x < input
    ensures FirstHit(pts, input, i)
  {
    forall j | 0 <= j < i
      ensures !Hit(pts, input, j)
    {
      if j + 1 < i {
        IncreasingFar(pts, j + 1, i);
      }
    }
  }

  /** On increasing points, the interpolation passes through every control
      point. */
  lemma AtKnot(pts: seq<Knot>, k: nat)
    requires Increasing(pts) && k < |pts| && |pts| >= 2
    ensures Interpolate(pts, pts[k].x) == Value(pts[k].y)
  {
    var input := pts[k].x;
    if k == 0 {
      FirstHitInside(pts, input, 0);
      assert Interpolate(pts, input) == Lerp(pts[0], pts[1], input);
      LerpEnds(pts[0], pts[1]);
    } else {
      FirstHitInside(pts, input, k - 1);
      assert Interpolate(pts, input) == Lerp(pts[k - 1], pts[k], input);
      LerpEnds(pts[k - 1], pts[k]);
    }
  }

  /** A segment of positive width interpolates to its end values at its
      ends. */
  lemma LerpEnds(p: Knot, q: Knot)
    requires p.x < q.x
    ensures Lerp(p, q, p.x) == Value(p.y)
    ensures Lerp(p, q, q.x) == Value(q.y)
  {
    var dx := q.x - p.x;
    assert (q.x - p.x) / dx == 1.0;
    assert (p.x - p.x) / dx == 0.0;
  }

  /** On increasing points, an input inside segment `i` gives a value
      between the segment's two y-values. */
  lemma Between(pts: seq<Knot>, input: real, i: nat)
    requires Increasing(pts) && i + 1 < |pts|
    requires pts[i].x <= input <= pts[i + 1].x
    ensures var r := Interpolate(pts, input);
      && r.Value?
      && (pts[i].y <= r.y <= pts[i + 1].y || pts[i + 1].y <= r.y <= pts[i].y)
  {
    if input == pts[i].x {
      AtKnot(pts, i);
    } else if input == pts[i + 1].x {
      AtKnot(pts, i + 1);
    } else {
      FirstHitInside(pts, input, i);
      assert Interpolate(pts, input) == Lerp(pts[i], pts[i + 1], input);
      LerpBetween(pts[i], pts[i + 1], input);
    }
  }

  /** Strictly inside a segment of positive width, the value lies between
      the end values. */
  lemma LerpBetween(p: Knot, q: Knot, input: real)
    requires p.x < input < q.x
    ensures var r := Lerp(p, q, input);
      r.Value? && (p.y <= r.y <= q.y || q.y <= r.y <= p.y)
  {
    var frac := Fraction(input - p.x, q.x - p.x);
    ScaleBetween(frac, p.y, q.y);
  }

  /** `num / den` for `0 <= num < den`, a fraction in `[0, 1)`. */
  function Fraction(num: real, den: real): (f: real)
    requires 0.0 <= num < den
    ensures 0.0 <= f < 1.0 && f == num / den
  {
    var f := num / den;
    assert f * den == num;
    assert (f - 1.0) * den == num - den;
    assert f < 1.0 by {
      if f >= 1.0 {
        MulNonneg(f - 1.0, den);
      }
    }
    assert f >= 0.0 by {
      if f < 0.0 {
        MulNonneg(-f, den);
      }
    }
    f
  }

  lemma MulNonneg(a: real, b: real)
    requires a >= 0.0 && b >= 0.0
    ensures a * b >= 0.0
  {
  }

  lemma ScaleBetween(f: real, y0: real, y1: real)
    requires 0.0 <= f <= 1.0
    ensures y0 <= f * (y1 - y0) + y0 <= y1 || y1 <= f * (y1 - y0) + y0 <= y0
  {
    var d := y1 - y0;
    assert f * d + (1.0 - f) * d == d;
    if d >= 0.0 {
      assert f * d >= 0.0 && (1.0 - f) * d >= 0.0;
    } else {
      assert f * d <= 0.0 && (1.0 - f) * d <= 0.0;
    }
  }

  /** On increasing points, some segment holds the input exactly when the
      input lies between the first and last x-values; outside, `at` is 0. */
  lemma HitIffInRange(pts: seq<Knot>, input: real)
    requires Increasing(pts) && |pts| >= 2
    ensures !NoHit(pts, input, 0, |pts| - 1) <==> pts[0].x <= input <= pts[|pts| - 1].x
    ensures !(pts[0].x <= input <= pts[|pts| - 1].x) ==> Interpolate(pts, input) == Value(0.0)
  {
    var last := |pts| - 1;
    if pts[0].x <= input <= pts[last].x {
      var i := Locate(pts, input, 0);
      assert Hit(pts, input, i);
    } else {
      forall j | 0 <= j < last
        ensures !Hit(pts, input, j)
      {
        if 0 < j {
          IncreasingFar(pts, 0, j);
        }
        if j + 1 < last {
          IncreasingFar(pts, j + 1, last);
        }
      }
    }
  }

  /** A segment at or after `lo` holding an input that lies between
      `pts[lo].x` and the last x-value. */
  lemma {:induction false} Locate(pts: seq<Knot>, input: real, lo: nat) returns (i: nat)
    requires |pts| >= 2 && lo < |pts| - 1
    requires pts[lo].x <= input <= pts[|pts| - 1].x
    ensures lo <= i < |pts| - 1 && Hit(pts, input, i)
    decreases |pts| - lo
  {
    if input <= pts[lo + 1].x {
      i := lo;
    } else {
      i := Locate(pts, input, lo + 1);
    }
  }

  /** A single point defines no segment: `at` is 0 everywhere. */
  lemma SinglePoint(p: Knot, input: real)
    ensures Interpolate([p], input) == Value(0.0)
  {
  }
}

=== FILE: wrappers.dfy ===
/** Rust's `Option`, as used for the host's library and staged path and the module's STATE slot. */
module Wrappers {

  datatype Option<+T> = None | Some(value: T)
}
